=== FILE: README.md ===
# Basecamp → JIRA task bridge: a Dafny model of its decision logic

The browser extension adds a button to Basecamp todo pages. When the button is
clicked, the Basecamp content script does two things:

- it records a *pending task*: the collapsed todo title, the page URL, the project
  name, the JIRA project key mapped from the Basecamp project id, and a timestamp;
- it opens the configured JIRA base URL.

The JIRA content script does the rest:

- it picks up the pending task and drops it if it is more than five minutes old;
- otherwise it opens the "Create issue" dialog by polling, and then fills the form on a fixed delay schedule: project key, first project option, summary, and external URL.

This project models the pure decisions of both scripts as functional Dafny and
proves what they promise:

| module | file | models |
|---|---|---|
| `Optional` | optional.dfy | `null` as `Option` |
| `Search` | search.dfy | "first element that …" scans, used by every ordered lookup |
| `Text` | text.dfy | JavaScript `\s`/`trim()` whitespace, `\d`, `includes`, `split('\n')`, ASCII `toLowerCase` |
| `ProjectMapping` | mapping.dfy | `findJiraProjectKey`: the `^(\d+)\s*-\s*(.+)$` line format and first-match rule |
| `PendingTasks` | pending.dfy | the stored pending task record |
| `BasecampPage` | basecamp.dfy | `getBasecampProjectId`, summary collapse, base-URL normalisation, the click handler |
| `JiraPage` | jira.dfy | the page as abstract element lists; `findCreateButton`, `isCreateFormOpen`, `selectProject`, `fillExternalUrl` |
| `CreateDialog` | dialog.dfy | `openCreateDialog` as a per-tick transition function driven by a sequence of observations |
| `PendingTaskFlow` | flow.dfy | the expiry check, the `fillCreateForm` timeline and `processPendingTask` |

The DOM is modelled as plain data. Each poll tick sees a `View` of the page. A `View`
holds:

- the controls with the create-button selectors each matches;
- the inputs with their `id`, `name` and `data-testid`;
- the labels with their `for` attribute and the input found near them;
- the `role="option"` elements;
- the navigation regions.

Timers are modelled as scheduled times in milliseconds, with two time origins:

- `CreateDialog` counts from the moment `openCreateDialog` starts.
- `PendingTaskFlow` counts from the moment `processPendingTask` reads the stored task. The fill steps start at `readyAfter` plus the time the dialog opener took to resolve. `readyAfter` is the time spent waiting for the JIRA page.

Three points of the code's ordering shape the model:

- The pending task is removed from storage right after the fill steps are scheduled, not after they run (content-jira.js:29-31). `Schedule` therefore places the removal after the key typing and before the option click.
- No issue type is read or selected anywhere in the code, so none is modelled.
- The removal waits for the dialog opener to resolve (content-jira.js:28-32). The opener always resolves within 16.5 s.

## Model

| member | source | states |
|---|---|---|
| Text.Trim | content-basecamp.js:42 | the result is the text that follows the leading whitespace, and only whitespace comes after it; it has no leading or trailing whitespace, and it is empty exactly when the input is all whitespace (JavaScript's WhiteSpace plus LineTerminator set) |
| Text.TrimOfPadded | content-basecamp.js:42 | trimming whitespace padding around an already trimmed text gives that text back |
| Text.Lines | content-basecamp.js:40 | splitting on `\n` gives at least one piece and no piece contains `\n` |
| Text.JoinLinesOfLines | content-basecamp.js:40 | joining the pieces with `\n` gives back the original text (nothing is lost by the split) |
| Text.Lower | content-jira.js:235 | lower-casing keeps the length and maps each character on its own |
| Text.Contains | content-jira.js:236 | `includes` holds exactly when the needle occurs at some position |
| ProjectMapping.MatchLine | content-basecamp.js:46 | a match's id group is a non-empty run of ASCII digits at the start of the line |
| ProjectMapping.MatchLineSound | content-basecamp.js:46 | a matching line has the shape digits, whitespace, `-`, whitespace, non-empty key without line terminators, and the groups are the digits and the key |
| ProjectMapping.MatchLineComplete | content-basecamp.js:46 | conversely, every line of that shape matches with that id, and the key group trims to the key |
| ProjectMapping.MatchOfTrimmedLine | content-basecamp.js:42-48 | on a trimmed line the key group is non-empty, already trimmed and free of line terminators |
| ProjectMapping.LineKey | content-basecamp.js:41-49 | a blank line yields nothing; a key yielded by one line is non-empty, trimmed and single-line |
| ProjectMapping.LineKeyMeaning | content-basecamp.js:41-48 | one line yields key k exactly when its trimmed form matches the pattern with an id equal to the project id and a key that trims to k; such a k is non-empty and trimmed |
| ProjectMapping.BlankLineYieldsNothing | content-basecamp.js:42-43 | a line that is blank after trimming yields no key |
| ProjectMapping.FindJiraProjectKey | content-basecamp.js:37-52 | no key when the project id is null or empty or the mappings text is empty; a returned key is non-empty, trimmed and single-line |
| ProjectMapping.FindJiraProjectKeyFirstMatch | content-basecamp.js:40-49 | when line i yields a key and no earlier line does, that key is the result |
| ProjectMapping.FindJiraProjectKeyNoMatch | content-basecamp.js:51 | when no line yields a key, the result is null |
| ProjectMapping.FindJiraProjectKeyHasSource | content-basecamp.js:40-49 | every returned key comes from some line, and no earlier line yields a key |
| ProjectMapping.LaterLinesIgnored | content-basecamp.js:47-49 | once the first lines yield a key, appending further lines (including duplicates of the id) does not change the result |
| ProjectMapping.BlankLineSkipped | content-basecamp.js:41-43 | inserting a blank line between two parts of the mappings text does not change the result |
| ProjectMapping.LinesOfJoined | content-basecamp.js:40 | splitting `a + "\n" + b` gives the lines of `a` followed by the lines of `b` |
| ProjectMapping.LineOfMapping | content-basecamp.js:45-48 | a line `<id> - <key>` yields the key for exactly that id and nothing for any other id |
| ProjectMapping.TwoLineMapping | content-basecamp.js:40-51 | with two mapping lines, a query gets the first line's key if its id equals the first id, otherwise the second line's key if it equals the second id, otherwise null |
| ProjectMapping.MappingExampleFound | content-basecamp.js:45-49 | on the text `111 - ABC` / `222 - DEF`, id 222 gives `DEF` |
| ProjectMapping.MappingExampleMissing | content-basecamp.js:45-51 | on the same text, id 333 gives null |
| BasecampPage.ProjectId | content-basecamp.js:32-35 | null exactly when no `/projects/` is directly followed by a digit; otherwise a non-empty digit run |
| BasecampPage.ProjectIdIsLeftmostMaximal | content-basecamp.js:33-34 | the id is the whole digit run after the leftmost `/projects/` that is followed by a digit |
| BasecampPage.ProjectIdOfProjectPath | content-basecamp.js:33-34 | a path `…/projects/<digits><non-digit…>` whose prefix holds no `p` yields exactly those digits |
| BasecampPage.ProjectIdOfNonNumericProject | content-basecamp.js:33-34 | `/projects/` followed by a non-digit, with no other `p` in the path, yields null |
| BasecampPage.CollapseRuns | content-basecamp.js:83 | the `\s+` to single-space replacement: empty only for empty input, keeps whether the ends are whitespace, leaves no two adjacent whitespace characters and only plain spaces |
| BasecampPage.CollapseSummary | content-basecamp.js:83 | the summary is trimmed, has no two adjacent whitespace characters, and its only whitespace is U+0020 |
| BasecampPage.CollapseRunsKeepsVisible | content-basecamp.js:83 | collapsing keeps every non-whitespace character, in order |
| BasecampPage.CollapseSummaryKeepsVisible | content-basecamp.js:83 | trim-then-collapse keeps every non-whitespace character of the title, in order |
| BasecampPage.CollapseSummaryIdempotent | content-basecamp.js:83 | collapsing an already collapsed summary changes nothing |
| BasecampPage.CollapseRunsAppend | content-basecamp.js:83 | a split right after a non-whitespace character is never inside a whitespace run, so each side collapses on its own |
| BasecampPage.CollapseRunsOfRun | content-basecamp.js:83 | a whitespace run of any length before a word or the end becomes exactly one space |
| BasecampPage.CollapseRunsSeparatesWords | content-basecamp.js:83 | two parts separated by a whitespace run come out joined by exactly one space, so words are never glued together |
| BasecampPage.CollapseSummarySeparatesWords | content-basecamp.js:83 | the summary of two trimmed texts joined by any whitespace is their two summaries joined by one space |
| BasecampPage.NormalizeBaseUrl | content-basecamp.js:107-113 | a URL with a scheme is kept, otherwise `https://` is prefixed; then exactly one trailing `/` is dropped if present, and nothing else changes |
| BasecampPage.NormalizedHasScheme | content-basecamp.js:108-113 | the opened URL starts with `http://` or `https://` for every non-empty setting other than a bare scheme |
| BasecampPage.BareSchemeLosesSlash | content-basecamp.js:111-113 | the settings `https://` and `http://` become `https:/` and `http:/` |
| BasecampPage.NormalizeKeepsPrefix | content-basecamp.js:107-113 | a URL that already has a scheme is only shortened, by at most one character |
| BasecampPage.NormalizeIdempotent | content-basecamp.js:107-113 | normalising twice equals normalising once unless the URL ends in `//` |
| BasecampPage.HandleJiraButtonClick | content-basecamp.js:75-116 | an empty base URL stores nothing; otherwise the task carries the click time and page URL, the collapsed title as summary (trimmed, single-spaced, with the title's visible characters), the trimmed heading as project name, and the mapping's answer for the path's project id as key (none without a project id); the opened URL is the normalised base URL |
| BasecampPage.ClickOpensUrlWithScheme | content-basecamp.js:98-114 | for any base URL other than empty or a bare scheme, a task is stored and the opened URL has a scheme |
| JiraPage.QuerySelector | content-jira.js:98 | a selector returns the first control in document order that matches it, and returns null exactly when no control does |
| JiraPage.ScanRegion | content-jira.js:105-108 | the text scan uses the `atlassian-navigation` region, else the primary nav, else the first nav, else the body |
| JiraPage.FindCreateButton | content-jira.js:86-119 | a found button is either a control of the page or a button in the scan region whose trimmed text is `Create` |
| JiraPage.FindCreateButtonBySelector | content-jira.js:97-103 | the first selector in list order with a match decides the result |
| JiraPage.FindCreateButtonByText | content-jira.js:105-118 | with no selector match, the result is the first `Create` button of the scan region, null exactly when there is none |
| JiraPage.SelectorMatchWins | content-jira.js:97-103 | if any control matches any selector, a selector-matched control is returned |
| JiraPage.IsCreateFormOpen | content-jira.js:121-124 | the form counts as open exactly when some input is named `summary` |
| JiraPage.SummaryInput | content-jira.js:192 | the summary field is the first input named `summary`, and is null exactly when no input has that name |
| JiraPage.ProjectInput | content-jira.js:206 | the project input is the first input whose id starts with `project-`, null exactly when none does |
| JiraPage.SelectProject | content-jira.js:202-229 | without a project input nothing happens; otherwise the key is typed into the first `project-` input, the one `querySelector` returns, and one second later the first option is clicked, or nothing if there is none |
| JiraPage.OptionChoiceIgnoresKey | content-jira.js:220-228 | the clicked option does not depend on the key that was typed |
| JiraPage.NamesExternalUrlIgnoresPadding | content-jira.js:235-236 | whether a label qualifies depends only on its trimmed text |
| JiraPage.InputById | content-jira.js:239 | the element looked up by id is the first input with that id, and is null exactly when no input has it |
| JiraPage.LabelTarget | content-jira.js:234-257 | a label yields an input only if its text names "external" and "url", and then via its `for` target or the input near it |
| JiraPage.LabelForBeforeNearby | content-jira.js:237-256 | a qualifying label's `for` target, when it exists, is used; the nearby input is used only when the `for` target is missing |
| JiraPage.FallbackTarget | content-jira.js:261-262 | the fallback takes the first input whose name contains `url` (ASCII case-insensitive), else the first one whose test id does, else nothing |
| JiraPage.FindExternalUrlInput | content-jira.js:231-268 | an input found through a label comes from a qualifying label |
| JiraPage.ExternalUrlFirstLabelWins | content-jira.js:234-258 | the first label that yields an input decides the result |
| JiraPage.ExternalUrlFallbackWithoutLabels | content-jira.js:260-268 | the name/test-id fallback decides exactly when no label yields an input |
| JiraPage.ExternalUrlLabelBeatsFallback | content-jira.js:233-268 | if any label yields an input, the result comes from a label no later than that one, never from the fallback |
| CreateDialog.Observe | content-jira.js:128-156 | each poll sees the form open exactly when the summary input exists, and sees a button exactly when `findCreateButton` finds one |
| CreateDialog.Start | content-jira.js:128-143 | an open form resolves at once without a click; otherwise polling starts, with a click at 0 ms exactly when a create button is found |
| CreateDialog.Tick | content-jira.js:144-170 | each tick adds 500 ms; a tick that sees the form stops without clicking; the only click a tick adds is the single retry; the reachable-state invariant is preserved |
| CreateDialog.ResolveBound | content-jira.js:130-169 | every finished run resolves within 16.5 s of the start |
| CreateDialog.Run | content-jira.js:126-172 | at most two clicks, only at 0 ms and 3000 ms, none when the form is already open |
| CreateDialog.AlreadyOpenNoClick | content-jira.js:128-132 | a form open at the start means no click and resolution after 500 ms |
| CreateDialog.DetectedAtFirstOpenTick | content-jira.js:147-152 | the first tick k that sees the form ends the run, resolving 500·(k+1)+1500 ms after the start with the clicks made so far |
| CreateDialog.TimesOutAfterQuietTicks | content-jira.js:165-169 | if thirty ticks never see the form, the run times out and resolves at 15000 ms |
| CreateDialog.PollingWhileQuiet | content-jira.js:144-170 | fewer than thirty ticks that never see the form leave the run polling |
| CreateDialog.AlwaysSettles | content-jira.js:142-170 | thirty ticks always end the run, at the latest 16.5 s after the start |
| CreateDialog.RetryClickIff | content-jira.js:154-163 | the retry click happens exactly when the form was closed at the start and on ticks 1 to 6, and tick 6 (3000 ms) finds a button |
| CreateDialog.InitialClickIff | content-jira.js:134-140 | the click at 0 ms happens exactly when the form was closed and a button was found at the start |
| CreateDialog.OpenCreateDialog | content-jira.js:126-172 | on real page views: an existing summary input means no click, a found button means the initial click, and thirty polls end the run |
| CreateDialog.OpenCreateDialogDetects | content-jira.js:144-152 | on real pages: with the form closed at the start, the first polled page k with the summary input ends the run as detected, resolving 500·(k+1)+1500 ms after the start |
| CreateDialog.OpenCreateDialogTimesOut | content-jira.js:144-169 | on real pages: thirty polled pages without the summary input time the run out, resolving at 15000 ms |
| CreateDialog.OpenCreateDialogRetryIff | content-jira.js:144-163 | on real pages: the retry click at 3000 ms happens exactly when the start page and the first six polled pages lack the summary input and the sixth polled page has a create button |
| CreateDialog.QuietPages | content-jira.js:147 | the polls stay quiet up to tick k exactly when none of the first k pages has the summary input |
| PendingTaskFlow.Decide | content-jira.js:11-22 | no task is reported when nothing is stored; a task is expired exactly when its age is over five minutes (300000 ms); otherwise it proceeds unchanged |
| PendingTaskFlow.StalenessBoundary | content-jira.js:18 | an age of exactly 300000 ms still proceeds, and 300001 ms expires |
| PendingTaskFlow.StalenessMonotone | content-jira.js:18 | once expired, a task stays expired at every later time |
| PendingTaskFlow.Schedule | content-jira.js:174-229 | the steps are in time order; the pending task is removed exactly once, with only key typing before it; the key is typed, and the option timer is set at 1 s, exactly when a truthy key meets a project input (whether an option is there to click is `JiraPage.SelectProject`'s concern); the summary comes 2 s after the start with a key and at once without, and the URL 500 ms after it |
| PendingTaskFlow.FillStepsScheduled | content-jira.js:181-188 | the summary and external-URL fills are always scheduled at their delays |
| PendingTaskFlow.ProcessPendingTask | content-jira.js:9-35 | nothing stored means nothing happens; a stale task is removed and never filled; for a fresh task the dialog is the opener's run, the task waits exactly while the opener still polls, and filling starts at readiness plus the opener's resolve time, so at most 16.5 s after readiness and exactly 0.5 s after it if the form was already open; thirty polls guarantee filling |
| PendingTaskFlow.OpenAndFill | content-jira.js:26-33 | the dialog is the opener's run on the given pages; the task waits exactly while the opener still polls, otherwise the same task moves to filling at `readyAfter` plus the opener's resolve time (0.5 s when the form is open at the first look, never more than 16.5 s); the project step depends on the project input present at fill time; thirty polls always lead to filling |
| PendingTaskFlow.StaleTaskNeverFilled | content-jira.js:18-22 | a task older than five minutes is removed and no fill step happens |
| PendingTaskFlow.FreshTaskFilledEvenOnTimeout | content-jira.js:26-33 | a fresh task gets its summary and URL fills scheduled even when the dialog opener timed out |

## Left out

- `chrome.storage` reads, writes, removal and the `onChanged` listeners are not modelled. The stored task is a parameter and removal is a step in the timeline. The second run of `processPendingTask` triggered by a storage change is an event-ordering concern.
- `waitForJiraReady` (a MutationObserver racing a timer) is not modelled. The moment it resolves is the parameter `readyAfter`.
- CSS selector matching, `querySelector`, `closest` and `textContent` are replaced by the abstract element lists of `JiraPage.View`.
  - Each control lists which create-button selectors it matches.
  - A label's `nearbyInput` stands for the first input inside the label itself or its nearest `[data-testid]` ancestor, else its parent. The case of a null container, which would throw, is not modelled.
  - `getElementById` searches only the inputs. In the code, a qualifying label whose `for` names an element that is not an input passes that element to `setNativeInputValue`. There the `HTMLInputElement` value setter throws and the fill stops. The model cannot see such an element, so `LabelTarget` falls through to the nearby input instead.
- `setNativeInputValue`, the events it dispatches and what the fill steps do to the page are not modelled. Where each step writes and when it runs are modelled separately. `SelectProject`, `SummaryInput` and `FindExternalUrlInput` pick the element. `Schedule` gives the time. A `Step` itself names no element.
- Button injection, the SVG markup, `observeDOM`, `alert`, `window.open` and the settings popup are UI plumbing. They are not modelled.
- Logging is not modelled, including the debug listing of labels when no URL field is found.
- Text.Lower: `toLowerCase` is modelled for ASCII letters only. For the label and name tests this is exact: they look only for the letters of "external" and "url", and no non-ASCII character lower-cases to one of those letters.
- A stored task with a missing or non-numeric timestamp is not modelled. In the code that comparison would be false because of NaN, and timestamps here are integers.
- BasecampPage.NormalizedHasScheme: it excludes the settings `http://` and `https://`. For those the code drops the scheme's own slash, as `BasecampPage.BareSchemeLosesSlash` states.
- The project option clicked is the first `role="option"` element on the page. The code does not compare it with the key, and the model does not either.

=== FILE: basecamp.dfy ===
/**
 * The producer side (content-basecamp.js): the Basecamp project id read from
 * the page path, the whitespace-collapsed summary, the normalised JIRA base
 * URL, and the pending task a click on the injected button produces.
 */
module BasecampPage {
  import opened Optional
  import opened Text
  import opened PendingTasks
  import ProjectMapping

  // ---------------------------------------------------------------------------
  // Project id: `pathname.match(/\/projects\/(\d+)/)`
  // ---------------------------------------------------------------------------

  const ProjectsSegment: string := "/projects/"

  /** The path has `/projects/` at `i`, directly followed by a digit. */
  predicate ProjectsAt(path: string, i: nat) {
    OccursAt(path, ProjectsSegment, i) && i + |ProjectsSegment| < |path| && IsDigit(path[i + |ProjectsSegment|])
  }

  /** The leftmost position at or after `from` where the pattern can start. */
  function ProjectsFrom(path: string, from: nat): (r: Option<nat>)
    ensures r.Some? ==> from <= r.value && ProjectsAt(path, r.value)
    ensures r.Some? ==> forall j :: from <= j < r.value ==> !ProjectsAt(path, j)
    ensures r.None? ==> forall j :: from <= j ==> !ProjectsAt(path, j)
    decreases |path| - from
  {
    if from + |ProjectsSegment| >= |path| then None
    else if ProjectsAt(path, from) then Some(from)
    else ProjectsFrom(path, from + 1)
  }

  /** The digits that follow `/projects/` at position `i`: the greedy `(\d+)`. */
  function DigitsAfter(path: string, i: nat): string
    requires ProjectsAt(path, i)
  {
    var rest := path[i + |ProjectsSegment|..];
    rest[..LeadingDigits(rest)]
  }

  /** `getBasecampProjectId`: the captured digits of the first match, or `null`. */
  function ProjectId(path: string): (r: Option<string>)
    ensures r.None? <==> forall i: nat :: !ProjectsAt(path, i)
    ensures r.Some? ==> |r.value| > 0 && AllDigits(r.value)
  {
    match ProjectsFrom(path, 0)
    case None => None
    case Some(i) => Some(DigitsAfter(path, i))
  }

  /**
   * The returned id is the maximal digit run after the leftmost `/projects/`
   * that is followed by a digit: it follows the segment, is not followed by
   * another digit, and no earlier position starts a match.
   */
  lemma {:induction false} ProjectIdIsLeftmostMaximal(path: string) returns (i: nat)
    requires ProjectId(path).Some?
    ensures ProjectsAt(path, i)
    ensures forall j :: 0 <= j < i ==> !ProjectsAt(path, j)
    ensures var id := ProjectId(path).value;
      && i + |ProjectsSegment| + |id| <= |path|
      && path[i..i + |ProjectsSegment| + |id|] == ProjectsSegment + id
      && (i + |ProjectsSegment| + |id| == |path| || !IsDigit(path[i + |ProjectsSegment| + |id|]))
  {
    i := ProjectsFrom(path, 0).value;
    var id := ProjectId(path).value;
    var k := i + |ProjectsSegment|;
    var rest := path[k..];
    assert id == rest[..|id|];
    assert path[i..k + |id|] == path[i..k] + path[k..k + |id|];
    assert path[k..k + |id|] == rest[..|id|];
  }

  /**
   * A project page path: a prefix without the letter `p`, then `/projects/`,
   * a digit run, and anything not starting with a digit. The id is that run.
   */
  lemma {:induction false} ProjectIdOfProjectPath(pre: string, digits: string, post: string)
    requires 'p' !in pre
    requires |digits| > 0 && AllDigits(digits)
    requires post == [] || !IsDigit(post[0])
    ensures ProjectId(pre + ProjectsSegment + digits + post) == Some(digits)
  {
    var path := pre + ProjectsSegment + digits + post;
    var i := |pre|;
    SegmentAfterPrefix(pre, digits + post);
    assert path == pre + ProjectsSegment + (digits + post);
    NoEarlierSegment(pre, digits + post);
    ProjectsFromFirst(path, 0, i);
    LeadingDigitsOfRun(digits, post);
    assert (digits + post)[..|digits|] == digits;
  }

  /** `/projects/` placed after `pre` and followed by a digit is a match at `|pre|`. */
  lemma {:induction false} SegmentAfterPrefix(pre: string, rest: string)
    requires rest != [] && IsDigit(rest[0])
    ensures ProjectsAt(pre + ProjectsSegment + rest, |pre|)
    ensures (pre + ProjectsSegment + rest)[|pre| + |ProjectsSegment|..] == rest
  {
    var path := pre + ProjectsSegment + rest;
    assert path[|pre|..|pre| + |ProjectsSegment|] == ProjectsSegment;
  }

  /** A prefix without `p` cannot hold the start of `/projects/`. */
  lemma {:induction false} NoEarlierSegment(pre: string, rest: string)
    requires 'p' !in pre
    ensures forall j :: 0 <= j < |pre| ==> !ProjectsAt(pre + ProjectsSegment + rest, j)
  {
    var path := pre + ProjectsSegment + rest;
    forall j | 0 <= j < |pre| ensures !ProjectsAt(path, j) {
      SegmentStart(path, j);
      if j + 1 < |pre| {
        assert path[j + 1] == pre[j + 1];
      } else {
        assert path[j + 1] == '/';
      }
    }
  }

  lemma {:induction false} ProjectsFromFirst(path: string, from: nat, i: nat)
    requires from <= i && ProjectsAt(path, i)
    requires forall j :: from <= j < i ==> !ProjectsAt(path, j)
    ensures ProjectsFrom(path, from) == Some(i)
    decreases i - from
  {
    if from < i {
      ProjectsFromFirst(path, from + 1, i);
    }
  }

  lemma {:induction false} LeadingDigitsOfRun(digits: string, post: string)
    requires AllDigits(digits)
    requires post == [] || !IsDigit(post[0])
    ensures LeadingDigits(digits + post) == |digits|
    decreases |digits|
  {
    if digits == [] {
      assert digits + post == post;
    } else {
      assert (digits + post)[1..] == digits[1..] + post;
      LeadingDigitsOfRun(digits[1..], post);
    }
  }

  /**
   * A `/projects/` segment not followed by a digit, in a path with no other
   * `p`, does not match: such a page has no project id.
   */
  lemma {:induction false} ProjectIdOfNonNumericProject(pre: string, post: string)
    requires 'p' !in pre && 'p' !in post
    requires post == [] || !IsDigit(post[0])
    ensures ProjectId(pre + ProjectsSegment + post) == None
  {
    var path := pre + ProjectsSegment + post;
    var n := |pre| + |ProjectsSegment|;
    assert forall k :: 0 <= k < |pre| ==> path[k] == pre[k];
    assert forall k :: |pre| <= k < n ==> path[k] == ProjectsSegment[k - |pre|];
    assert forall k :: n <= k < |path| ==> path[k] == post[k - n];
    forall j: nat ensures !ProjectsAt(path, j) {
      SegmentStart(path, j);
      if j == |pre| && j + |ProjectsSegment| < |path| {
        assert path[j + |ProjectsSegment|] == post[0];
      }
    }
  }

  /** Where `/projects/` occurs, the path has `/p` at that position. */
  lemma {:induction false} SegmentStart(path: string, j: nat)
    ensures OccursAt(path, ProjectsSegment, j) ==> j + 1 < |path| && path[j] == '/' && path[j + 1] == 'p'
  {
    if OccursAt(path, ProjectsSegment, j) {
      assert path[j..j + |ProjectsSegment|][0] == '/';
      assert path[j..j + |ProjectsSegment|][1] == 'p';
    }
  }

  // ---------------------------------------------------------------------------
  // Summary: `textContent.trim().replace(/\s+/g, ' ')`
  // ---------------------------------------------------------------------------

  /** No two whitespace characters are adjacent. */
  predicate NoAdjacentWhitespace(s: string) {
    forall i :: 0 <= i < |s| - 1 ==> !(IsWhitespace(s[i]) && IsWhitespace(s[i + 1]))
  }

  /** Every whitespace character is a plain space. */
  predicate OnlyPlainSpaces(s: string) {
    forall i :: 0 <= i < |s| ==> IsWhitespace(s[i]) ==> s[i] == ' '
  }

  /** The non-whitespace characters of `s`, in order. */
  function Visible(s: string): string
    decreases |s|
  {
    if s == [] then [] else (if IsWhitespace(s[0]) then [] else [s[0]]) + Visible(s[1..])
  }

  /** `replace(/\s+/g, ' ')`: every maximal whitespace run becomes one space. */
  function CollapseRuns(s: string): (r: string)
    ensures r == [] <==> s == []
    ensures r != [] ==> (IsWhitespace(r[0]) <==> IsWhitespace(s[0]))
    ensures r != [] ==> (IsWhitespace(r[|r| - 1]) <==> IsWhitespace(s[|s| - 1]))
    ensures NoAdjacentWhitespace(r)
    ensures OnlyPlainSpaces(r)
    decreases |s|
  {
    if s == [] then []
    else if IsWhitespace(s[0]) then
      var n := LeadingWhitespace(s);
      var rest := CollapseRuns(s[n..]);
      assert rest != [] ==> !IsWhitespace(rest[0]);
      assert rest == [] ==> AllWhitespace(s);
      " " + rest
    else
      var rest := CollapseRuns(s[1..]);
      assert rest != [] ==> s[1..][|s[1..]| - 1] == s[|s| - 1];
      [s[0]] + rest
  }

  /** The summary written into the pending task: trimmed, then whitespace runs collapsed. */
  function CollapseSummary(text: string): (r: string)
    ensures IsTrimmed(r)
    ensures NoAdjacentWhitespace(r)
    ensures OnlyPlainSpaces(r)
  {
    CollapseRuns(Trim(text))
  }

  lemma {:induction false} VisibleAppend(a: string, b: string)
    ensures Visible(a + b) == Visible(a) + Visible(b)
    decreases |a|
  {
    if a == [] {
      assert a + b == b;
    } else {
      assert (a + b)[0] == a[0];
      assert (a + b)[1..] == a[1..] + b;
      VisibleAppend(a[1..], b);
    }
  }

  lemma {:induction false} VisibleOfWhitespace(w: string)
    requires AllWhitespace(w)
    ensures Visible(w) == []
    decreases |w|
  {
    if w != [] {
      VisibleOfWhitespace(w[1..]);
    }
  }

  /** Collapsing runs changes only whitespace: the visible characters are kept, in order. */
  lemma {:induction false} CollapseRunsKeepsVisible(s: string)
    ensures Visible(CollapseRuns(s)) == Visible(s)
    decreases |s|
  {
    if s == [] {
    } else if IsWhitespace(s[0]) {
      var n := LeadingWhitespace(s);
      CollapseRunsKeepsVisible(s[n..]);
      assert s == s[..n] + s[n..];
      VisibleAppend(s[..n], s[n..]);
      VisibleOfWhitespace(s[..n]);
      VisibleAppend(" ", CollapseRuns(s[n..]));
      assert Visible(" ") == [];
    } else {
      CollapseRunsKeepsVisible(s[1..]);
      VisibleAppend([s[0]], CollapseRuns(s[1..]));
      assert Visible([s[0]]) == [s[0]];
    }
  }

  /** Whitespace around a text adds no visible characters. */
  lemma {:induction false} VisibleOfPadded(a: string, m: string, b: string)
    requires AllWhitespace(a) && AllWhitespace(b)
    ensures Visible(a + m + b) == Visible(m)
  {
    VisibleAppend(a, m);
    VisibleAppend(a + m, b);
    VisibleOfWhitespace(a);
    VisibleOfWhitespace(b);
  }

  /** Trimming removes no visible character. */
  lemma {:induction false} VisibleOfTrim(text: string)
    ensures Visible(Trim(text)) == Visible(text)
  {
    TrimSplits(text);
    VisibleOfCore(text, LeadingWhitespace(text), Trim(text));
  }

  /** A piece of `s` with only whitespace on either side shows what `s` shows. */
  lemma {:induction false} VisibleOfCore(s: string, a: nat, t: string)
    requires a + |t| <= |s|
    requires s[a..] == t + s[a + |t|..]
    requires AllWhitespace(s[..a]) && AllWhitespace(s[a + |t|..])
    ensures Visible(t) == Visible(s)
  {
    assert s == s[..a] + t + s[a + |t|..] by {
      assert s == s[..a] + s[a..];
    }
    VisibleOfPadded(s[..a], t, s[a + |t|..]);
  }

  /** The summary shows exactly the visible characters of the title, in order. */
  lemma {:induction false} CollapseSummaryKeepsVisible(text: string)
    ensures Visible(CollapseSummary(text)) == Visible(text)
  {
    CollapseRunsKeepsVisible(Trim(text));
    VisibleOfTrim(text);
  }

  /** A string already in collapsed form is left as it is. */
  lemma {:induction false} CollapseRunsOfCollapsed(s: string)
    requires NoAdjacentWhitespace(s) && OnlyPlainSpaces(s)
    ensures CollapseRuns(s) == s
    decreases |s|
  {
    if s != [] {
      assert NoAdjacentWhitespace(s[1..]) && OnlyPlainSpaces(s[1..]) by {
        assert forall i :: 0 <= i < |s[1..]| ==> s[1..][i] == s[i + 1];
      }
      if IsWhitespace(s[0]) {
        assert |s| > 1 ==> !IsWhitespace(s[1]);
        assert LeadingWhitespace(s) == 1;
        CollapseRunsOfCollapsed(s[1..]);
        assert s == [' '] + s[1..];
      } else {
        CollapseRunsOfCollapsed(s[1..]);
        assert s == [s[0]] + s[1..];
      }
    }
  }

  /** Collapsing the summary twice gives the same text as once. */
  lemma {:induction false} CollapseSummaryIdempotent(text: string)
    ensures CollapseSummary(CollapseSummary(text)) == CollapseSummary(text)
  {
    var r := CollapseSummary(text);
    TrimOfTrimmed(r);
    CollapseRunsOfCollapsed(r);
  }

  /** A text with a visible character leads with the same whitespace whatever follows it. */
  lemma {:induction false} LeadingOfVisible(a: string, t: string)
    requires a != [] && !IsWhitespace(a[|a| - 1])
    ensures LeadingWhitespace(a + t) == LeadingWhitespace(a) < |a|
    decreases |a|
  {
    assert (a + t)[0] == a[0];
    if IsWhitespace(a[0]) {
      DropOfAppend(a, t, 1);
      assert a[1..][|a[1..]| - 1] == a[|a| - 1];
      LeadingOfVisible(a[1..], t);
    }
  }

  /** One step of collapsing at a visible first character. */
  lemma {:induction false} CollapseRunsAtVisible(s: string)
    requires s != [] && !IsWhitespace(s[0])
    ensures CollapseRuns(s) == [s[0]] + CollapseRuns(s[1..])
  {
  }

  /** One step of collapsing at a whitespace first character. */
  lemma {:induction false} CollapseRunsAtSpace(s: string)
    requires s != [] && IsWhitespace(s[0])
    ensures CollapseRuns(s) == " " + CollapseRuns(s[LeadingWhitespace(s)..])
  {
  }

  /** A boundary right after a visible character is kept: collapsing works on each side apart. */
  lemma {:induction false} CollapseRunsAppend(a: string, t: string)
    requires a != [] && !IsWhitespace(a[|a| - 1])
    ensures CollapseRuns(a + t) == CollapseRuns(a) + CollapseRuns(t)
    decreases |a|, 1
  {
    if IsWhitespace(a[0]) {
      CollapseRunsAppendAtSpace(a, t);
    } else {
      CollapseRunsAppendAtVisible(a, t);
    }
  }

  lemma {:induction false} CollapseRunsAppendAtVisible(a: string, t: string)
    requires a != [] && !IsWhitespace(a[|a| - 1]) && !IsWhitespace(a[0])
    ensures CollapseRuns(a + t) == CollapseRuns(a) + CollapseRuns(t)
    decreases |a|, 0
  {
    var s := a + t;
    assert s[0] == a[0];
    CollapseRunsAtVisible(s);
    CollapseRunsAtVisible(a);
    if |a| == 1 {
      DropOfAppend(a, t, 1);
      assert a[1..] == [];
      JoinAfterHead(CollapseRuns(s), CollapseRuns(a), CollapseRuns(t), [a[0]], []);
    } else {
      DropOfAppend(a, t, 1);
      assert a[1..][|a[1..]| - 1] == a[|a| - 1];
      CollapseRunsAppend(a[1..], t);
      JoinAfterHead(CollapseRuns(s), CollapseRuns(a), CollapseRuns(t), [a[0]], CollapseRuns(a[1..]));
    }
  }

  lemma {:induction false} CollapseRunsAppendAtSpace(a: string, t: string)
    requires a != [] && !IsWhitespace(a[|a| - 1]) && IsWhitespace(a[0])
    ensures CollapseRuns(a + t) == CollapseRuns(a) + CollapseRuns(t)
    decreases |a|, 0
  {
    var s := a + t;
    assert s[0] == a[0];
    CollapseRunsAtSpace(s);
    CollapseRunsAtSpace(a);
    LeadingOfVisible(a, t);
    var n := LeadingWhitespace(a);
    DropOfAppend(a, t, n);
    assert a[n..][|a[n..]| - 1] == a[|a| - 1];
    CollapseRunsAppend(a[n..], t);
    JoinAfterHead(CollapseRuns(s), CollapseRuns(a), CollapseRuns(t), " ", CollapseRuns(a[n..]));
  }

  lemma {:induction false} DropOfAppend(a: string, t: string, n: nat)
    requires n <= |a|
    ensures (a + t)[n..] == a[n..] + t
  {
  }

  /** Regrouping: a head put before a join is the head put before the first part, then joined. */
  lemma {:induction false} JoinAfterHead(whole: string, left: string, right: string, head: string, rest: string)
    requires whole == head + (rest + right) && left == head + rest
    ensures whole == left + right
  {
  }

  /** A whitespace run in front of a word (or of nothing) becomes exactly one space. */
  lemma {:induction false} CollapseRunsOfRun(w: string, b: string)
    requires w != [] && AllWhitespace(w)
    requires b == [] || !IsWhitespace(b[0])
    ensures CollapseRuns(w + b) == " " + CollapseRuns(b)
  {
    LeadingOfPadded(w, b);
    assert (w + b)[0] == w[0];
    assert (w + b)[|w|..] == b;
  }

  /** Two words separated by any whitespace run come out separated by exactly one space. */
  lemma {:induction false} CollapseRunsSeparatesWords(a: string, w: string, b: string)
    requires a != [] && !IsWhitespace(a[|a| - 1])
    requires w != [] && AllWhitespace(w)
    requires b == [] || !IsWhitespace(b[0])
    ensures CollapseRuns(a + w + b) == CollapseRuns(a) + " " + CollapseRuns(b)
  {
    var x := CollapseRuns(a);
    var y := CollapseRuns(b);
    assert a + w + b == a + (w + b);
    CollapseRunsAppend(a, w + b);
    CollapseRunsOfRun(w, b);
    JoinAfterHead(CollapseRuns(a + w + b), x + " ", y, x, " ");
  }

  /** The summary of two trimmed texts joined by whitespace joins their summaries with one space. */
  lemma {:induction false} CollapseSummarySeparatesWords(a: string, w: string, b: string)
    requires a != [] && IsTrimmed(a)
    requires w != [] && AllWhitespace(w)
    requires b != [] && IsTrimmed(b)
    ensures CollapseSummary(a + w + b) == CollapseSummary(a) + " " + CollapseSummary(b)
  {
    var s := a + w + b;
    assert s[0] == a[0] && s[|s| - 1] == b[|b| - 1];
    TrimOfTrimmed(s);
    TrimOfTrimmed(a);
    TrimOfTrimmed(b);
    CollapseRunsSeparatesWords(a, w, b);
  }

  // ---------------------------------------------------------------------------
  // Base URL normalisation (handleJiraButtonClick)
  // ---------------------------------------------------------------------------

  predicate HasScheme(url: string) {
    StartsWith(url, "http://") || StartsWith(url, "https://")
  }

  /** `https://` is put in front of a URL without an `http://` or `https://` prefix. */
  function WithScheme(url: string): string {
    if HasScheme(url) then url else "https://" + url
  }

  /** The address opened in the new tab: a scheme added if missing, one trailing `/` dropped. */
  function NormalizeBaseUrl(url: string): (r: string)
    ensures HasScheme(url) ==> r == url || r + "/" == url
    ensures !HasScheme(url) ==> r == "https://" + url || r + "/" == "https://" + url
    ensures r + "/" == WithScheme(url) <==> EndsWith(WithScheme(url), "/")
  {
    var b := WithScheme(url);
    if EndsWith(b, "/") then
      assert b == b[..|b| - 1] + "/";
      b[..|b| - 1]
    else
      assert !EndsWith(b + "/", "/") ==> false;
      b
  }

  /**
   * The opened address carries a scheme, except when the configured URL is
   * nothing but a scheme: then dropping the trailing `/` breaks the `//`.
   */
  lemma {:induction false} NormalizedHasScheme(url: string)
    requires url != [] && url != "http://" && url != "https://"
    ensures HasScheme(NormalizeBaseUrl(url))
  {
    var b := WithScheme(url);
    var r := NormalizeBaseUrl(url);
    if StartsWith(url, "http://") {
      assert |url| > 7 || !EndsWith(url, "/");
      assert r[..7] == url[..7];
    } else if StartsWith(url, "https://") {
      assert |url| > 8 || !EndsWith(url, "/");
      assert r[..8] == url[..8];
    } else {
      assert |b| > 8;
      assert r[..8] == b[..8];
    }
  }

  /** A bare scheme is not kept intact. */
  lemma BareSchemeLosesSlash()
    ensures NormalizeBaseUrl("https://") == "https:/"
    ensures NormalizeBaseUrl("http://") == "http:/"
  {
    assert HasScheme("https://") && HasScheme("http://");
  }

  /** A configured URL with a scheme keeps its prefix: only one final character may go. */
  lemma {:induction false} NormalizeKeepsPrefix(url: string)
    requires HasScheme(url)
    ensures var r := NormalizeBaseUrl(url); |r| >= |url| - 1 && r == url[..|r|]
  {
  }

  /** Normalising again changes nothing unless the address ended in `//`. */
  lemma {:induction false} NormalizeIdempotent(url: string)
    requires !EndsWith(WithScheme(url), "//")
    ensures NormalizeBaseUrl(NormalizeBaseUrl(url)) == NormalizeBaseUrl(url)
  {
    var b := WithScheme(url);
    var r := NormalizeBaseUrl(url);
    assert |b| >= 7;
    if EndsWith(b, "/") {
      assert r == b[..|b| - 1];
      assert |b| > 8 || b == "http://" || b == "https://" || !EndsWith(b, "/");
      assert b[|b| - 2] != '/';
      if StartsWith(b, "https://") {
        assert b != "https://";
        assert r[..8] == b[..8];
      } else {
        assert b != "http://";
        assert r[..7] == b[..7];
      }
      assert HasScheme(r);
      assert !EndsWith(r, "/");
    } else {
      assert HasScheme(b);
      assert r == b;
    }
  }

  // ---------------------------------------------------------------------------
  // The button click (handleJiraButtonClick)
  // ---------------------------------------------------------------------------

  /**
   * What the click handler reads from the Basecamp page: the location, and the
   * text of the todo title and project heading when those elements exist.
   */
  datatype PageSnapshot = PageSnapshot(
    href: string,
    pathname: string,
    titleText: Option<string>,
    projectHeading: Option<string>)

  /** The extension settings kept in memory: base URL and mapping text. */
  datatype Settings = Settings(jiraBaseUrl: string, projectMappings: string)

  /** Either the base-URL alert (nothing stored, nothing opened) or the stored task and the opened tab. */
  datatype ClickOutcome =
    | BaseUrlMissing
    | TaskCreated(task: PendingTask, openedUrl: string)

  /** `handleJiraButtonClick`, with `Date.now()` passed in as `now`. */
  function HandleJiraButtonClick(settings: Settings, page: PageSnapshot, now: int): (r: ClickOutcome)
    ensures r.BaseUrlMissing? <==> settings.jiraBaseUrl == []
    ensures r.TaskCreated? ==>
      && r.task.timestamp == now
      && r.task.basecampUrl == page.href
      && IsTrimmed(r.task.summary) && NoAdjacentWhitespace(r.task.summary)
      && Visible(r.task.summary) == Visible(page.titleText.GetOr([]))
      && IsTrimmed(r.task.projectName)
      && (r.task.jiraProjectKey.Some? ==> ProjectId(page.pathname).Some?)
    ensures r.TaskCreated? ==>
      && r.openedUrl == NormalizeBaseUrl(settings.jiraBaseUrl)
      && r.task.summary == CollapseSummary(page.titleText.GetOr([]))
      && r.task.projectName == Trim(page.projectHeading.GetOr([]))
      && r.task.jiraProjectKey == ProjectMapping.FindJiraProjectKey(ProjectId(page.pathname), settings.projectMappings)
  {
    if settings.jiraBaseUrl == [] then BaseUrlMissing
    else
      var summary := CollapseSummary(page.titleText.GetOr([]));
      CollapseSummaryKeepsVisible(page.titleText.GetOr([]));
      var task := PendingTask(
        summary,
        page.href,
        Trim(page.projectHeading.GetOr([])),
        ProjectMapping.FindJiraProjectKey(ProjectId(page.pathname), settings.projectMappings),
        now);
      TaskCreated(task, NormalizeBaseUrl(settings.jiraBaseUrl))
  }

  /** Unless the base URL is a bare scheme, the click creates a task and opens a URL with a scheme. */
  lemma {:induction false} ClickOpensUrlWithScheme(settings: Settings, page: PageSnapshot, now: int)
    requires settings.jiraBaseUrl != [] && settings.jiraBaseUrl != "http://" && settings.jiraBaseUrl != "https://"
    ensures var r := HandleJiraButtonClick(settings, page, now);
      r.TaskCreated? && HasScheme(r.openedUrl)
  {
    NormalizedHasScheme(settings.jiraBaseUrl);
  }
}

=== FILE: dialog.dfy ===
/**
 * `openCreateDialog` (content-jira.js) as a tick-driven state machine.
 *
 * The page is observed once when the dialog opener starts and once per poll
 * tick; each observation says whether the create form is open and whether a
 * create button would be found. The timers are replaced by the tick index:
 * tick `k` (counting from 1) fires at `500 * k` ms.
 */
module CreateDialog {
  import opened Optional
  import JiraPage

  const PollIntervalMs: nat := 500
  const MaxWaitMs: nat := 15000
  /** The poll tick at which the single retry click is attempted. */
  const RetryAtMs: nat := 3000
  /** Delay before resolving when the form was already open at the start. */
  const AlreadyOpenDelayMs: nat := 500
  /** Delay before resolving once the form is detected by a poll tick. */
  const DetectedDelayMs: nat := 1500

  /** What one look at the page tells the poll loop. */
  datatype Observation = Observation(formOpen: bool, buttonFound: bool)

  /** The observation `isCreateFormOpen` and `findCreateButton` make of a page. */
  function Observe(view: JiraPage.View): (o: Observation)
    ensures o.formOpen <==> JiraPage.SummaryInput(view).Some?
    ensures o.buttonFound <==> JiraPage.FindCreateButton(view).Some?
  {
    Observation(JiraPage.IsCreateFormOpen(view), JiraPage.FindCreateButton(view).Some?)
  }

  datatype Phase = Polling | AlreadyOpen | Detected | TimedOut

  /**
   * The opener's state: the phase, `elapsed`, the `retryClick` flag, and the
   * times (in ms from the start) at which the create button was clicked.
   */
  datatype Dialog = Dialog(phase: Phase, elapsed: nat, retryClick: bool, clicks: seq<nat>)

  /** When the returned promise resolves, in ms from the start; none while still polling. */
  function ResolveTime(d: Dialog): (t: Option<nat>)
    ensures t.None? <==> d.phase == Polling
  {
    match d.phase
    case Polling => None
    case AlreadyOpen => Some(d.elapsed + AlreadyOpenDelayMs)
    case Detected => Some(d.elapsed + DetectedDelayMs)
    case TimedOut => Some(d.elapsed)
  }

  /** A settled reachable state resolves by 16.5 s: 15 s of polling plus the 1.5 s detection delay. */
  lemma {:induction false} ResolveBound(d: Dialog)
    requires Reachable(d) && d.phase != Polling
    ensures ResolveTime(d).value <= MaxWaitMs + DetectedDelayMs
  {
  }

  /**
   * The shape every reachable state has: `elapsed` is a whole number of
   * ticks and at most 15000, the retry flag is still set exactly until the
   * 3000 ms tick has gone past without detecting the form, and the clicks are
   * at most the initial one at 0 and the retry at 3000.
   */
  predicate Reachable(d: Dialog) {
    && d.elapsed % PollIntervalMs == 0
    && d.elapsed <= MaxWaitMs
    && (d.phase != Detected ==> (d.retryClick <==> d.elapsed < RetryAtMs))
    && (d.phase == Detected ==> (d.retryClick <==> d.elapsed <= RetryAtMs))
    && (d.phase == Polling ==> d.elapsed < MaxWaitMs)
    && (d.phase == TimedOut ==> d.elapsed == MaxWaitMs)
    && (d.phase == AlreadyOpen ==> d.elapsed == 0 && d.clicks == [])
    && (d.clicks == [] || d.clicks == [0] || d.clicks == [RetryAtMs] || d.clicks == [0, RetryAtMs])
    && (d.retryClick ==> d.clicks == [] || d.clicks == [0])
  }

  /** The start of `openCreateDialog`: resolve soon if the form is open, else click a button if there is one. */
  function Start(first: Observation): (d: Dialog)
    ensures Reachable(d)
    ensures first.formOpen ==> d.phase == AlreadyOpen && d.clicks == []
    ensures !first.formOpen ==> d.phase == Polling && (d.clicks == [0] <==> first.buttonFound)
  {
    if first.formOpen then Dialog(AlreadyOpen, 0, true, [])
    else Dialog(Polling, 0, true, if first.buttonFound then [0] else [])
  }

  /** One poll tick: detection first, then the one-time retry, then the time limit. */
  function Tick(d: Dialog, o: Observation): (r: Dialog)
    requires d.phase == Polling
    ensures r.elapsed == d.elapsed + PollIntervalMs
    ensures o.formOpen ==> r.phase == Detected && r.clicks == d.clicks && r.retryClick == d.retryClick
    ensures r.clicks == d.clicks || (d.retryClick && !r.retryClick && !o.formOpen && o.buttonFound && r.clicks == d.clicks + [r.elapsed])
    ensures Reachable(d) ==> Reachable(r)
  {
    var e := d.elapsed + PollIntervalMs;
    if o.formOpen then Dialog(Detected, e, d.retryClick, d.clicks)
    else
      var retryNow := d.retryClick && e >= RetryAtMs;
      var clicks := if retryNow && o.buttonFound then d.clicks + [e] else d.clicks;
      Dialog(if e >= MaxWaitMs then TimedOut else Polling, e, d.retryClick && !retryNow, clicks)
  }

  /** Feed the tick observations from index `i` on, stopping once the promise is settled. */
  function RunFrom(d: Dialog, ticks: seq<Observation>, i: nat): (r: Dialog)
    ensures Reachable(d) ==> Reachable(r)
    ensures |d.clicks| <= |r.clicks| && r.clicks[..|d.clicks|] == d.clicks
    ensures !d.retryClick ==> r.clicks == d.clicks
    ensures forall t :: t in r.clicks ==> t in d.clicks || t > d.elapsed
    decreases |ticks| - i
  {
    if d.phase != Polling || i >= |ticks| then d
    else
      var r := RunFrom(Tick(d, ticks[i]), ticks, i + 1);
      assert r.clicks[..|d.clicks|] == r.clicks[..|Tick(d, ticks[i]).clicks|][..|d.clicks|];
      r
  }

  /** `openCreateDialog` given its first look at the page and one observation per tick. */
  function Run(first: Observation, ticks: seq<Observation>): (r: Dialog)
    ensures Reachable(r)
    ensures |r.clicks| <= 2
    ensures forall t :: t in r.clicks ==> t == 0 || t == RetryAtMs
    ensures first.formOpen ==> r.clicks == []
  {
    RunFrom(Start(first), ticks, 0)
  }

  /** The clicks made before tick `k`: the initial one, and the retry once tick 6 has passed. */
  function ClicksBefore(first: Observation, ticks: seq<Observation>, k: nat): seq<nat>
    requires k <= |ticks|
  {
    (if first.buttonFound then [0] else [])
      + (if k >= RetryAtMs / PollIntervalMs && ticks[RetryAtMs / PollIntervalMs - 1].buttonFound then [RetryAtMs] else [])
  }

  /** The state after `k` ticks that all found the form closed. */
  function Quiet(first: Observation, ticks: seq<Observation>, k: nat): Dialog
    requires k <= |ticks|
  {
    Dialog(Polling, PollIntervalMs * k, PollIntervalMs * k < RetryAtMs, ClicksBefore(first, ticks, k))
  }

  /** No tick before `k` saw the form open. */
  predicate QuietUntil(ticks: seq<Observation>, k: nat) {
    k <= |ticks| && forall j :: 0 <= j < k ==> !ticks[j].formOpen
  }

  /** A closed-form account of the first `k` quiet ticks. */
  lemma {:induction false} RunThroughQuietTicks(first: Observation, ticks: seq<Observation>, k: nat)
    requires !first.formOpen && QuietUntil(ticks, k) && k < MaxWaitMs / PollIntervalMs
    ensures Run(first, ticks) == RunFrom(Quiet(first, ticks, k), ticks, k)
  {
    if k == 0 {
      assert Start(first) == Quiet(first, ticks, 0);
    } else {
      RunThroughQuietTicks(first, ticks, k - 1);
      var d := Quiet(first, ticks, k - 1);
      assert Tick(d, ticks[k - 1]) == Quiet(first, ticks, k);
    }
  }

  /** The form was open at the start: the promise resolves after 500 ms and nothing is clicked. */
  lemma {:induction false} AlreadyOpenNoClick(first: Observation, ticks: seq<Observation>)
    requires first.formOpen
    ensures Run(first, ticks).phase == AlreadyOpen
    ensures Run(first, ticks).clicks == []
    ensures ResolveTime(Run(first, ticks)) == Some(AlreadyOpenDelayMs)
  {
  }

  /**
   * The first tick that sees the form open ends the polling: the promise
   * resolves 1500 ms later, and only the clicks made before that tick happened.
   */
  lemma {:induction false} DetectedAtFirstOpenTick(first: Observation, ticks: seq<Observation>, k: nat)
    requires !first.formOpen && QuietUntil(ticks, k) && k < |ticks| && ticks[k].formOpen
    requires k < MaxWaitMs / PollIntervalMs
    ensures Run(first, ticks).phase == Detected
    ensures Run(first, ticks).clicks == ClicksBefore(first, ticks, k)
    ensures ResolveTime(Run(first, ticks)) == Some(PollIntervalMs * (k + 1) + DetectedDelayMs)
  {
    RunThroughQuietTicks(first, ticks, k);
  }

  /** Thirty ticks without the form: the promise resolves at 15000 ms all the same. */
  lemma {:induction false} TimesOutAfterQuietTicks(first: Observation, ticks: seq<Observation>)
    requires !first.formOpen && QuietUntil(ticks, MaxWaitMs / PollIntervalMs)
    ensures Run(first, ticks).phase == TimedOut
    ensures Run(first, ticks).clicks == ClicksBefore(first, ticks, MaxWaitMs / PollIntervalMs)
    ensures ResolveTime(Run(first, ticks)) == Some(MaxWaitMs)
  {
    var n := MaxWaitMs / PollIntervalMs;
    RunThroughQuietTicks(first, ticks, n - 1);
    assert Tick(Quiet(first, ticks, n - 1), ticks[n - 1]) == Dialog(TimedOut, MaxWaitMs, false, ClicksBefore(first, ticks, n));
  }

  /** Fewer than thirty ticks, none with the form: the loop is still polling. */
  lemma {:induction false} PollingWhileQuiet(first: Observation, ticks: seq<Observation>)
    requires !first.formOpen && QuietUntil(ticks, |ticks|) && |ticks| < MaxWaitMs / PollIntervalMs
    ensures Run(first, ticks) == Quiet(first, ticks, |ticks|)
  {
    RunThroughQuietTicks(first, ticks, |ticks|);
  }

  /** The ticks before the first one that sees the form open, looking no further than `n`. */
  lemma {:induction false} FirstOpenTick(ticks: seq<Observation>, n: nat) returns (k: nat)
    requires n <= |ticks|
    ensures k <= n && QuietUntil(ticks, k)
    ensures k < n ==> ticks[k].formOpen
  {
    k := 0;
    while k < n && !ticks[k].formOpen
      invariant k <= n && QuietUntil(ticks, k)
    {
      k := k + 1;
    }
  }

  /** Given thirty tick observations, the loop has always settled, no later than 16.5 s after the start. */
  lemma {:induction false} AlwaysSettles(first: Observation, ticks: seq<Observation>)
    requires |ticks| >= MaxWaitMs / PollIntervalMs
    ensures Run(first, ticks).phase != Polling
    ensures ResolveTime(Run(first, ticks)).value <= MaxWaitMs + DetectedDelayMs
  {
    if !first.formOpen {
      var k := FirstOpenTick(ticks, MaxWaitMs / PollIntervalMs);
      if k < MaxWaitMs / PollIntervalMs {
        DetectedAtFirstOpenTick(first, ticks, k);
      } else {
        TimesOutAfterQuietTicks(first, ticks);
      }
    }
  }

  lemma {:induction false} SettledWhenLongEnough(first: Observation, ticks: seq<Observation>)
    ensures |ticks| >= MaxWaitMs / PollIntervalMs ==> Run(first, ticks).phase != Polling
  {
    if |ticks| >= MaxWaitMs / PollIntervalMs {
      AlwaysSettles(first, ticks);
    }
  }

  /**
   * The retry click happens exactly when the form was closed at the start
   * and at each of the first six ticks, and the sixth tick (3000 ms) finds a
   * create button.
   */
  lemma {:induction false} RetryClickIff(first: Observation, ticks: seq<Observation>)
    ensures RetryAtMs in Run(first, ticks).clicks <==>
      !first.formOpen && QuietUntil(ticks, RetryAtMs / PollIntervalMs) && ticks[RetryAtMs / PollIntervalMs - 1].buttonFound
  {
    var six := RetryAtMs / PollIntervalMs;
    if !first.formOpen {
      var n := if |ticks| < six then |ticks| else six;
      var k := FirstOpenTick(ticks, n);
      if k < n {
        DetectedAtFirstOpenTick(first, ticks, k);
      } else if n < six {
        PollingWhileQuiet(first, ticks);
      } else {
        RunThroughQuietTicks(first, ticks, six);
        var d := Quiet(first, ticks, six);
        assert !d.retryClick;
      }
    }
  }

  /** The initial click happens exactly when the form was closed at the start and a button was found. */
  lemma {:induction false} InitialClickIff(first: Observation, ticks: seq<Observation>)
    ensures 0 in Run(first, ticks).clicks <==> !first.formOpen && first.buttonFound
  {
    var s := Start(first);
    var r := Run(first, ticks);
    if !first.formOpen && first.buttonFound {
      assert r.clicks[..1] == [0];
    } else if !first.formOpen {
      assert s.clicks == [];
    }
  }

  /** `openCreateDialog` on actual pages: the page at the start, then the page at each tick. */
  function OpenCreateDialog(start: JiraPage.View, pages: seq<JiraPage.View>): (r: Dialog)
    ensures Reachable(r)
    ensures JiraPage.SummaryInput(start).Some? ==> r.phase == AlreadyOpen && r.clicks == []
    ensures JiraPage.SummaryInput(start).None? && JiraPage.FindCreateButton(start).Some? ==> 0 in r.clicks
    ensures |pages| >= MaxWaitMs / PollIntervalMs ==> r.phase != Polling
  {
    var ticks := Ticks(pages);
    var r := Run(Observe(start), ticks);
    InitialClickIff(Observe(start), ticks);
    SettledWhenLongEnough(Observe(start), ticks);
    r
  }

  /** What each poll tick sees: one observation per page, in order. */
  function Ticks(pages: seq<JiraPage.View>): (r: seq<Observation>)
    ensures |r| == |pages|
    ensures forall i :: 0 <= i < |pages| ==> r[i] == Observe(pages[i])
  {
    seq(|pages|, i requires 0 <= i < |pages| => Observe(pages[i]))
  }

  /** The ticks are quiet up to `k` exactly when none of the first `k` pages has the summary input. */
  lemma {:induction false} QuietPages(pages: seq<JiraPage.View>, k: nat)
    requires k <= |pages|
    ensures QuietUntil(Ticks(pages), k) <==> forall j :: 0 <= j < k ==> JiraPage.SummaryInput(pages[j]).None?
  {
    var ticks := Ticks(pages);
    assert forall j :: 0 <= j < k ==> ticks[j] == Observe(pages[j]);
  }

  /**
   * On actual pages: when the form is closed at the start and page `k` is the
   * first polled page with the summary input, the run is detected there and
   * resolves 500·(k+1)+1500 ms after the start.
   */
  lemma {:induction false} OpenCreateDialogDetects(start: JiraPage.View, pages: seq<JiraPage.View>, k: nat)
    requires JiraPage.SummaryInput(start).None?
    requires k < |pages| && k < MaxWaitMs / PollIntervalMs
    requires forall j :: 0 <= j < k ==> JiraPage.SummaryInput(pages[j]).None?
    requires JiraPage.SummaryInput(pages[k]).Some?
    ensures OpenCreateDialog(start, pages).phase == Detected
    ensures ResolveTime(OpenCreateDialog(start, pages)) == Some(PollIntervalMs * (k + 1) + DetectedDelayMs)
  {
    var ticks := Ticks(pages);
    QuietPages(pages, k);
    assert ticks[k] == Observe(pages[k]);
    DetectedAtFirstOpenTick(Observe(start), ticks, k);
  }

  /** On actual pages: thirty polled pages without the summary input time out at 15000 ms. */
  lemma {:induction false} OpenCreateDialogTimesOut(start: JiraPage.View, pages: seq<JiraPage.View>)
    requires JiraPage.SummaryInput(start).None?
    requires |pages| >= MaxWaitMs / PollIntervalMs
    requires forall j :: 0 <= j < MaxWaitMs / PollIntervalMs ==> JiraPage.SummaryInput(pages[j]).None?
    ensures OpenCreateDialog(start, pages).phase == TimedOut
    ensures ResolveTime(OpenCreateDialog(start, pages)) == Some(MaxWaitMs)
  {
    QuietPages(pages, MaxWaitMs / PollIntervalMs);
    TimesOutAfterQuietTicks(Observe(start), Ticks(pages));
  }

  /**
   * On actual pages: the retry click at 3000 ms happens exactly when the
   * form is closed at the start and on the first six polled pages, and the
   * sixth page has a create button.
   */
  lemma {:induction false} OpenCreateDialogRetryIff(start: JiraPage.View, pages: seq<JiraPage.View>)
    ensures RetryAtMs in OpenCreateDialog(start, pages).clicks <==>
      && JiraPage.SummaryInput(start).None?
      && |pages| >= RetryAtMs / PollIntervalMs
      && (forall j :: 0 <= j < RetryAtMs / PollIntervalMs ==> JiraPage.SummaryInput(pages[j]).None?)
      && JiraPage.FindCreateButton(pages[RetryAtMs / PollIntervalMs - 1]).Some?
  {
    var six := RetryAtMs / PollIntervalMs;
    var ticks := Ticks(pages);
    RetryClickIff(Observe(start), ticks);
    if |pages| >= six {
      QuietPages(pages, six);
      assert ticks[six - 1] == Observe(pages[six - 1]);
    }
  }
}

=== FILE: flow.dfy ===
/**
 * The consumer's control flow in content-jira.js: `processPendingTask`
 * decides whether a stored task is acted on, and `fillCreateForm` lays out
 * the timed steps that populate the create form.
 *
 * Time is in milliseconds. `now` is the clock when the stored task is read;
 * `readyAfter` is how long waiting for the JIRA page took, which this model
 * takes as given.
 */
module PendingTaskFlow {
  import opened Optional
  import opened PendingTasks
  import JiraPage
  import CreateDialog

  /** Five minutes: a task older than this is discarded. */
  const MaxAgeMs: int := 5 * 60 * 1000
  /** Time for the project picker's options to appear. */
  const OptionDelayMs: nat := 1000
  /** Time for the form to re-render after a project change. */
  const ProjectSettleMs: nat := 2000
  /** Gap between filling the summary and filling the External URL. */
  const UrlAfterSummaryMs: nat := 500

  // ---------------------------------------------------------------------------
  // Staleness
  // ---------------------------------------------------------------------------

  /** The expiry test: strictly older than five minutes. */
  predicate IsStale(task: PendingTask, now: int) {
    now - task.timestamp > MaxAgeMs
  }

  datatype Decision = NoTask | Expired | Proceed(task: PendingTask)

  /** The first two checks of `processPendingTask`. */
  function Decide(stored: Option<PendingTask>, now: int): (r: Decision)
    ensures r.NoTask? <==> stored.None?
    ensures r.Expired? <==> stored.Some? && IsStale(stored.value, now)
    ensures r.Proceed? ==> stored == Some(r.task) && !IsStale(r.task, now)
  {
    match stored
    case None => NoTask
    case Some(task) => if IsStale(task, now) then Expired else Proceed(task)
  }

  /** A task exactly five minutes old is still processed; one millisecond later it expires. */
  lemma {:induction false} StalenessBoundary(task: PendingTask)
    ensures Decide(Some(task), task.timestamp + MaxAgeMs) == Proceed(task)
    ensures Decide(Some(task), task.timestamp + MaxAgeMs + 1) == Expired
  {
  }

  /** Once expired, a task stays expired at every later time, and a fresh task was fresh at every earlier one back to its creation. */
  lemma {:induction false} StalenessMonotone(task: PendingTask, t1: int, t2: int)
    requires t1 <= t2
    ensures Decide(Some(task), t1).Expired? ==> Decide(Some(task), t2).Expired?
    ensures Decide(Some(task), t2).Proceed? ==> Decide(Some(task), t1).Proceed?
  {
  }

  // ---------------------------------------------------------------------------
  // The fill schedule
  // ---------------------------------------------------------------------------

  /** The actions of the fill sequence, plus removal of the stored task. */
  datatype Step =
    | TypeProjectKey(key: string)
    /** The option timer firing: it clicks the first option only if one exists then (`JiraPage.SelectProject`). */
    | ClickFirstOption
    | FillSummary(summary: string)
    | FillExternalUrl(url: string)
    | ClearTask
  {
    /** An action on the form itself. */
    predicate IsFill() { !ClearTask? }
  }

  /** A step and the time it runs. */
  datatype Timed = Timed(at: nat, step: Step)

  /** Steps listed in the order they run, which is also the order of their times. */
  predicate InTimeOrder(steps: seq<Timed>) {
    forall i :: 0 <= i < |steps| - 1 ==> steps[i].at <= steps[i + 1].at
  }

  /**
   * The stored task is removed exactly once, at position `c`, and only
   * typing the project key (which happens synchronously) comes before it:
   * no timer-driven step runs while the task is still stored.
   */
  predicate ClearedOnceAt(steps: seq<Timed>, c: nat) {
    && c < |steps|
    && (forall i :: 0 <= i < |steps| ==> (steps[i].step.ClearTask? <==> i == c))
    && (forall i :: 0 <= i < c ==> steps[i].step.TypeProjectKey?)
  }

  /** The delay `fillCreateForm` waits before filling the summary. */
  function SummaryDelay(task: PendingTask): nat
  {
    if HasProjectKey(task) then ProjectSettleMs else 0
  }

  /** Typing the key happens only with a truthy key and a project input on the page. */
  function TypesKey(task: PendingTask, projectInputFound: bool): bool {
    HasProjectKey(task) && projectInputFound
  }

  /**
   * What happens from the moment `start` the create dialog has resolved:
   * `fillCreateForm` types the key into the project input at once (when a
   * key is present and the page has a project input) and sets the option
   * click and summary timers; `processPendingTask` then removes the stored
   * task; the timers fire in time order, the summary timer setting the URL
   * timer.
   */
  function Schedule(task: PendingTask, projectInputFound: bool, start: nat): (r: seq<Timed>)
    ensures InTimeOrder(r)
    ensures ClearedOnceAt(r, if TypesKey(task, projectInputFound) then 1 else 0)
    ensures forall i :: 0 <= i < |r| ==> r[i].at >= start
    ensures |r| >= 3 && r[|r| - 2] == Timed(start + SummaryDelay(task), FillSummary(task.summary))
    ensures r[|r| - 1] == Timed(r[|r| - 2].at + UrlAfterSummaryMs, FillExternalUrl(task.basecampUrl))
    ensures TypesKey(task, projectInputFound) <==> r[0].step.TypeProjectKey?
    ensures TypesKey(task, projectInputFound) <==> exists i :: 0 <= i < |r| && r[i].step.ClickFirstOption?
    ensures forall i :: 0 <= i < |r| && r[i].step.ClickFirstOption? ==> r[i].at == start + OptionDelayMs
    ensures forall i :: 0 <= i < |r| && r[i].step.TypeProjectKey? ==> r[i].at == start && task.jiraProjectKey == Some(r[i].step.key)
  {
    var summaryAt := start + SummaryDelay(task);
    if TypesKey(task, projectInputFound) then
      var r := [Timed(start, TypeProjectKey(task.jiraProjectKey.value)), Timed(start, ClearTask),
        Timed(start + OptionDelayMs, ClickFirstOption), Timed(summaryAt, FillSummary(task.summary)),
        Timed(summaryAt + UrlAfterSummaryMs, FillExternalUrl(task.basecampUrl))];
      assert r[2].step.ClickFirstOption?;
      r
    else
      [Timed(start, ClearTask), Timed(summaryAt, FillSummary(task.summary)),
        Timed(summaryAt + UrlAfterSummaryMs, FillExternalUrl(task.basecampUrl))]
  }

  /** Without a project key the summary is filled right after the task is removed, the URL half a second later. */
  lemma {:induction false} ScheduleWithoutKey(task: PendingTask, found: bool, start: nat)
    requires !HasProjectKey(task)
    ensures Schedule(task, found, start) ==
      [Timed(start, ClearTask), Timed(start, FillSummary(task.summary)), Timed(start + 500, FillExternalUrl(task.basecampUrl))]
  {
  }

  /**
   * With a key and a project input: the key is typed and the task removed at
   * once, the first option is clicked at 1 s, the summary filled at 2 s and
   * the URL at 2.5 s.
   */
  lemma {:induction false} ScheduleWithKey(task: PendingTask, start: nat)
    requires HasProjectKey(task)
    ensures Schedule(task, true, start) ==
      [Timed(start, TypeProjectKey(task.jiraProjectKey.value)), Timed(start, ClearTask),
       Timed(start + 1000, ClickFirstOption), Timed(start + 2000, FillSummary(task.summary)),
       Timed(start + 2500, FillExternalUrl(task.basecampUrl))]
  {
  }

  // ---------------------------------------------------------------------------
  // processPendingTask
  // ---------------------------------------------------------------------------

  /** The end result of one run of `processPendingTask`. */
  datatype Consumption =
    | NothingStored
    | RemovedStale
    | AwaitingForm(dialog: CreateDialog.Dialog)
    | Filling(task: PendingTask, dialog: CreateDialog.Dialog, start: nat, projectInputFound: bool)
  {
    /** The fill steps, with the removal of the stored task, in the order they run. */
    function Steps(): seq<Timed>
      requires Filling?
    {
      Schedule(task, projectInputFound, start)
    }
  }

  /**
   * `processPendingTask`: `first` is the page when the dialog opener starts,
   * `pages` the page at each poll tick, `atFill` the page when the fill
   * sequence starts (it decides whether there is a project input).
   */
  function ProcessPendingTask(stored: Option<PendingTask>, now: int, readyAfter: nat,
                              first: JiraPage.View, pages: seq<JiraPage.View>, atFill: JiraPage.View): (r: Consumption)
    ensures r.NothingStored? <==> stored.None?
    ensures r.RemovedStale? <==> stored.Some? && IsStale(stored.value, now)
    ensures r.Filling? ==> stored == Some(r.task) && !IsStale(r.task, now)
    ensures r.Filling? ==> readyAfter <= r.start <= readyAfter + CreateDialog.MaxWaitMs + CreateDialog.DetectedDelayMs
    ensures r.Filling? && JiraPage.SummaryInput(first).Some? ==> r.start == readyAfter + CreateDialog.AlreadyOpenDelayMs
    ensures stored.Some? && !IsStale(stored.value, now) && |pages| >= CreateDialog.MaxWaitMs / CreateDialog.PollIntervalMs ==> r.Filling?
    ensures stored.Some? && !IsStale(stored.value, now) ==>
      && (r.AwaitingForm? || r.Filling?)
      && r.dialog == CreateDialog.OpenCreateDialog(first, pages)
      && (r.AwaitingForm? <==> r.dialog.phase == CreateDialog.Polling)
      && (r.Filling? ==> r.start == readyAfter + CreateDialog.ResolveTime(r.dialog).value)
  {
    match Decide(stored, now)
    case NoTask => NothingStored
    case Expired => RemovedStale
    case Proceed(task) => OpenAndFill(task, readyAfter, first, pages, atFill)
  }

  /** A fresh task: open the create dialog, then lay out the fill steps from the moment it resolves. */
  function OpenAndFill(task: PendingTask, readyAfter: nat,
                       first: JiraPage.View, pages: seq<JiraPage.View>, atFill: JiraPage.View): (r: Consumption)
    ensures r.AwaitingForm? || r.Filling?
    ensures r.Filling? ==> r.task == task
    ensures r.Filling? ==> r.projectInputFound == JiraPage.ProjectInput(atFill).Some?
    ensures r.Filling? ==> readyAfter <= r.start <= readyAfter + CreateDialog.MaxWaitMs + CreateDialog.DetectedDelayMs
    ensures r.Filling? && JiraPage.SummaryInput(first).Some? ==> r.start == readyAfter + CreateDialog.AlreadyOpenDelayMs
    ensures |pages| >= CreateDialog.MaxWaitMs / CreateDialog.PollIntervalMs ==> r.Filling?
    ensures r.dialog == CreateDialog.OpenCreateDialog(first, pages)
    ensures r.AwaitingForm? <==> r.dialog.phase == CreateDialog.Polling
    ensures r.Filling? ==> r.start == readyAfter + CreateDialog.ResolveTime(r.dialog).value
  {
    var d := CreateDialog.OpenCreateDialog(first, pages);
    match CreateDialog.ResolveTime(d)
    case None => AwaitingForm(d)
    case Some(t) =>
      CreateDialog.ResolveBound(d);
      var found := JiraPage.ProjectInput(atFill).Some?;
      Filling(task, d, readyAfter + t, found)
  }

  /** A stale task is removed and nothing is written into the form. */
  lemma {:induction false} StaleTaskNeverFilled(task: PendingTask, now: int, readyAfter: nat,
                             first: JiraPage.View, pages: seq<JiraPage.View>, atFill: JiraPage.View)
    requires now - task.timestamp > MaxAgeMs
    ensures ProcessPendingTask(Some(task), now, readyAfter, first, pages, atFill) == RemovedStale
  {
  }

  /**
   * A fresh task is acted on even when the form never appears: after thirty
   * poll ticks its summary and URL steps are scheduled, after the one removal
   * of the stored task.
   */
  lemma {:induction false} FreshTaskFilledEvenOnTimeout(task: PendingTask, now: int, readyAfter: nat,
                                     first: JiraPage.View, pages: seq<JiraPage.View>, atFill: JiraPage.View)
    requires !IsStale(task, now)
    requires |pages| >= CreateDialog.MaxWaitMs / CreateDialog.PollIntervalMs
    ensures var r := ProcessPendingTask(Some(task), now, readyAfter, first, pages, atFill);
      && r.Filling?
      && Timed(r.start + SummaryDelay(task), FillSummary(task.summary)) in r.Steps()
      && Timed(r.start + SummaryDelay(task) + UrlAfterSummaryMs, FillExternalUrl(task.basecampUrl)) in r.Steps()
  {
    var r := ProcessPendingTask(Some(task), now, readyAfter, first, pages, atFill);
    assert r.Filling? && r.task == task;
    FillStepsScheduled(task, r.projectInputFound, r.start);
  }

  /** The summary and URL steps are always in the schedule, whatever the project picker does. */
  lemma {:induction false} FillStepsScheduled(task: PendingTask, found: bool, start: nat)
    ensures Timed(start + SummaryDelay(task), FillSummary(task.summary)) in Schedule(task, found, start)
    ensures Timed(start + SummaryDelay(task) + UrlAfterSummaryMs, FillExternalUrl(task.basecampUrl)) in Schedule(task, found, start)
  {
    var r := Schedule(task, found, start);
    assert r[|r| - 2] in r && r[|r| - 1] in r;
  }
}

=== FILE: jira.dfy ===
/**
 * The element lookups of content-jira.js over an abstract page: the create
 * button, the summary input that signals an open create form, the project
 * picker and its first option, and the External URL input.
 *
 * A page is a set of ordered element lists. Each list is in document order,
 * so `querySelector` is the first element of a list that satisfies the
 * selector's condition.
 */
module JiraPage {
  import opened Optional
  import opened Text
  import opened Search

  /** The seven create-button selectors, in the order they are tried. */
  datatype CreateSelector =
    | NavigationCreateButton   // button[data-testid="atlassian-navigation--create-button"]
    | CreateGlobalItemButton   // button[data-testid="createGlobalItem"]
    | SidebarCreateButton      // button[data-testid="navigation-apps-sidebar-global-create.ui.create-button--button"]
    | GlobalCreateButton       // button[data-testid="global-create-button"]
    | CreateGlobalItemLink     // a[data-testid="createGlobalItem"]
    | AriaCreate               // button[aria-label="Create"]
    | AriaCreateIssue          // button[aria-label="Create issue"]

  const CreateSelectors: seq<CreateSelector> := [
    NavigationCreateButton, CreateGlobalItemButton, SidebarCreateButton, GlobalCreateButton,
    CreateGlobalItemLink, AriaCreate, AriaCreateIssue]

  /** A button or link: its identity, its text content, and which create selectors it satisfies. */
  datatype Control = Control(ref: nat, text: string, selectors: set<CreateSelector>)

  /** An `<input>` with its `id`, `name` and `data-testid` attributes (empty when absent). */
  datatype Input = Input(ref: nat, id: string, name: string, testId: string)

  /**
   * A `<label>`: its text content, its `for` attribute (empty when absent,
   * which JavaScript treats alike), and the first input inside the label's
   * `closest('[data-testid]')` container, or else inside its parent.
   */
  datatype Label = Label(text: string, forId: string, nearbyInput: Option<Input>)

  /**
   * The page as the lookups see it. `controls`, `inputs`, `labels` and
   * `options` (texts of `[role="option"]` elements) are in document order.
   * The four regions are the button lists of the text-scan candidates:
   * `[data-testid="atlassian-navigation"]`, `nav[aria-label="Primary"]`, the
   * first `nav`, and the body; a missing element is `None`.
   */
  datatype View = View(
    controls: seq<Control>,
    inputs: seq<Input>,
    labels: seq<Label>,
    options: seq<string>,
    atlassianNavigation: Option<seq<Control>>,
    primaryNav: Option<seq<Control>>,
    firstNav: Option<seq<Control>>,
    bodyButtons: seq<Control>)

  // ---------------------------------------------------------------------------
  // findCreateButton
  // ---------------------------------------------------------------------------

  /** `document.querySelector(selector)` for one create selector. */
  function QuerySelector(view: View, sel: CreateSelector): (r: Option<Control>)
    ensures r.Some? ==> r.value in view.controls && sel in r.value.selectors
    ensures r.None? <==> forall j :: 0 <= j < |view.controls| ==> sel !in view.controls[j].selectors
    ensures r.Some? ==>
      exists i :: 0 <= i < |view.controls| && view.controls[i] == r.value &&
        forall j :: 0 <= j < i ==> sel !in view.controls[j].selectors
  {
    FirstWhere(view.controls, (c: Control) => sel in c.selectors)
  }

  /** The lookup result of each selector, in the order given. */
  function SelectorHits(view: View, sels: seq<CreateSelector>): (r: seq<Option<Control>>)
    ensures |r| == |sels|
    ensures forall k :: 0 <= k < |sels| ==> r[k] == QuerySelector(view, sels[k])
  {
    if sels == [] then [] else [QuerySelector(view, sels[0])] + SelectorHits(view, sels[1..])
  }

  /** The region whose buttons are scanned by text: the first of the four candidates that exists. */
  function ScanRegion(view: View): (r: seq<Control>)
    ensures view.atlassianNavigation.Some? ==> r == view.atlassianNavigation.value
    ensures view.atlassianNavigation.None? && view.primaryNav.Some? ==> r == view.primaryNav.value
    ensures view.atlassianNavigation.None? && view.primaryNav.None? && view.firstNav.Some? ==> r == view.firstNav.value
    ensures view.atlassianNavigation.None? && view.primaryNav.None? && view.firstNav.None? ==> r == view.bodyButtons
  {
    match view.atlassianNavigation
    case Some(b) => b
    case None =>
      match view.primaryNav
      case Some(b) => b
      case None => view.firstNav.GetOr(view.bodyButtons)
  }

  /** A button whose trimmed text is exactly `Create`. */
  predicate LabelledCreate(c: Control) {
    Trim(c.text) == "Create"
  }

  /** `findCreateButton`: the first selector with a hit, else the first `Create` button of the scan region. */
  function FindCreateButton(view: View): (r: Option<Control>)
    ensures r.Some? ==> r.value in view.controls || (r.value in ScanRegion(view) && LabelledCreate(r.value))
  {
    match FirstSome(SelectorHits(view, CreateSelectors))
    case Some(c) => Some(c)
    case None => FirstWhere(ScanRegion(view), LabelledCreate)
  }

  /**
   * When selector `k` is the first selector with a hit, its first matching
   * element is the button: later selectors and the text scan are not consulted.
   */
  lemma {:induction false} FindCreateButtonBySelector(view: View, k: nat)
    requires k < |CreateSelectors| && QuerySelector(view, CreateSelectors[k]).Some?
    requires forall j :: 0 <= j < k ==> QuerySelector(view, CreateSelectors[j]).None?
    ensures FindCreateButton(view) == QuerySelector(view, CreateSelectors[k])
    ensures CreateSelectors[k] in FindCreateButton(view).value.selectors
  {
    var hits := SelectorHits(view, CreateSelectors);
    assert hits[k] == QuerySelector(view, CreateSelectors[k]);
    assert forall j :: 0 <= j < k ==> hits[j].None?;
    FirstSomeAt(hits, k);
  }

  /**
   * When no selector matches, the button is the first button of the scan
   * region whose trimmed text is `Create`, and there is none when no such
   * button exists.
   */
  lemma {:induction false} FindCreateButtonByText(view: View)
    requires forall k :: 0 <= k < |CreateSelectors| ==> QuerySelector(view, CreateSelectors[k]).None?
    ensures FindCreateButton(view) == FirstWhere(ScanRegion(view), LabelledCreate)
    ensures FindCreateButton(view).None? <==> forall j :: 0 <= j < |ScanRegion(view)| ==> !LabelledCreate(ScanRegion(view)[j])
  {
  }

  /** An element that satisfies any create selector is always found, whatever the buttons' texts. */
  lemma {:induction false} SelectorMatchWins(view: View, c: Control)
    requires c in view.controls && c.selectors != {}
    ensures FindCreateButton(view).Some?
    ensures FindCreateButton(view).value.selectors != {}
  {
    var sel :| sel in c.selectors;
    var k := SelectorIndex(sel);
    var hits := SelectorHits(view, CreateSelectors);
    assert hits[k] == QuerySelector(view, sel);
    var i := FirstSomeNoLaterThan(hits, k);
    assert hits[i] == QuerySelector(view, CreateSelectors[i]);
  }

  /** Every create selector appears in the list: its position. */
  function SelectorIndex(sel: CreateSelector): (k: nat)
    ensures k < |CreateSelectors| && CreateSelectors[k] == sel
  {
    match sel
    case NavigationCreateButton => 0
    case CreateGlobalItemButton => 1
    case SidebarCreateButton => 2
    case GlobalCreateButton => 3
    case CreateGlobalItemLink => 4
    case AriaCreate => 5
    case AriaCreateIssue => 6
  }

  // ---------------------------------------------------------------------------
  // isCreateFormOpen and fillSummary
  // ---------------------------------------------------------------------------

  /** `input[name="summary"]`. */
  predicate IsSummaryInput(i: Input) {
    i.name == "summary"
  }

  /** The input `fillSummary` writes to: the first input named `summary`. */
  function SummaryInput(view: View): (r: Option<Input>)
    ensures r.Some? ==> r.value in view.inputs && r.value.name == "summary"
    ensures r.Some? ==>
      exists i :: 0 <= i < |view.inputs| && view.inputs[i] == r.value &&
        forall j :: 0 <= j < i ==> view.inputs[j].name != "summary"
    ensures r.None? <==> forall j :: 0 <= j < |view.inputs| ==> view.inputs[j].name != "summary"
  {
    FirstWhere(view.inputs, IsSummaryInput)
  }

  /**
   * `isCreateFormOpen`: the same query as `fillSummary`, so the form counts as
   * open exactly when some input is named `summary`.
   */
  function IsCreateFormOpen(view: View): (open: bool)
    ensures open <==> exists j :: 0 <= j < |view.inputs| && view.inputs[j].name == "summary"
  {
    SummaryInput(view).Some?
  }

  // ---------------------------------------------------------------------------
  // selectProject
  // ---------------------------------------------------------------------------

  const ProjectIdPrefix: string := "project-"

  /** `input[id^="project-"]`. */
  predicate IsProjectInput(i: Input) {
    StartsWith(i.id, ProjectIdPrefix)
  }

  /** `document.querySelector('input[id^="project-"]')`. */
  function ProjectInput(view: View): (r: Option<Input>)
    ensures r.Some? ==> r.value in view.inputs && IsProjectInput(r.value)
    ensures r.None? <==> forall j :: 0 <= j < |view.inputs| ==> !IsProjectInput(view.inputs[j])
    ensures r.Some? ==>
      exists i :: 0 <= i < |view.inputs| && view.inputs[i] == r.value &&
        forall j :: 0 <= j < i ==> !IsProjectInput(view.inputs[j])
  {
    FirstWhere(view.inputs, IsProjectInput)
  }

  /** What `selectProject` does: nothing without a project input, else type the key and later click an option. */
  datatype ProjectSelection =
    | NoProjectInput
    | Typed(input: Input, key: string, clicked: Option<string>)

  /**
   * `selectProject`: `now` is the page when it runs, `later` the page one
   * second on, when the first `[role="option"]` element (if any) is clicked.
   */
  function SelectProject(key: string, now: View, later: View): (r: ProjectSelection)
    ensures r.NoProjectInput? <==> forall j :: 0 <= j < |now.inputs| ==> !IsProjectInput(now.inputs[j])
    ensures r.Typed? ==> r.input in now.inputs && IsProjectInput(r.input) && r.key == key
    ensures r.Typed? ==> ProjectInput(now) == Some(r.input)
    ensures r.Typed? ==> (r.clicked.None? <==> later.options == [])
    ensures r.Typed? && r.clicked.Some? ==> r.clicked.value == later.options[0]
  {
    match ProjectInput(now)
    case None => NoProjectInput
    case Some(input) => Typed(input, key, if later.options == [] then None else Some(later.options[0]))
  }

  /**
   * The option clicked does not depend on the key typed: two different keys
   * on the same pages lead to the same click.
   */
  lemma {:induction false} OptionChoiceIgnoresKey(key1: string, key2: string, now: View, later: View)
    ensures SelectProject(key1, now, later).NoProjectInput? <==> SelectProject(key2, now, later).NoProjectInput?
    ensures SelectProject(key1, now, later).Typed? ==>
      SelectProject(key1, now, later).clicked == SelectProject(key2, now, later).clicked
  {
  }

  // ---------------------------------------------------------------------------
  // fillExternalUrl
  // ---------------------------------------------------------------------------

  /** A label names the field when its trimmed, lower-cased text contains `external` and `url`. */
  predicate NamesExternalUrl(text: string) {
    var t := Lower(Trim(text));
    Contains(t, "external") && Contains(t, "url")
  }

  /** Whitespace around a label's text does not change whether it names the field. */
  lemma {:induction false} NamesExternalUrlIgnoresPadding(a: string, text: string, b: string)
    requires AllWhitespace(a) && AllWhitespace(b) && IsTrimmed(text)
    ensures NamesExternalUrl(a + text + b) <==> NamesExternalUrl(text)
  {
    TrimOfPadded(a, text, b);
    TrimOfTrimmed(text);
  }

  /** `document.getElementById(id)` among the inputs. */
  function InputById(view: View, id: string): (r: Option<Input>)
    ensures r.Some? ==> r.value in view.inputs && r.value.id == id
    ensures r.None? <==> forall j :: 0 <= j < |view.inputs| ==> view.inputs[j].id != id
    ensures r.Some? ==>
      exists i :: 0 <= i < |view.inputs| && view.inputs[i] == r.value &&
        forall j :: 0 <= j < i ==> view.inputs[j].id != id
  {
    FirstWhere(view.inputs, (i: Input) => i.id == id)
  }

  /** How the External URL input was found, or that it was not. */
  datatype UrlTarget =
    | ViaLabelFor(labelIndex: nat, input: Input)
    | ViaLabelNearby(labelIndex: nat, input: Input)
    | ViaName(input: Input)
    | ViaTestId(input: Input)
    | NotFound
  {
    predicate Found() { !NotFound? }
  }

  /** What one label yields: its `for` target when it has one, else the input near it. */
  function LabelTarget(view: View, index: nat): (r: Option<UrlTarget>)
    requires index < |view.labels|
    ensures r.Some? ==> NamesExternalUrl(view.labels[index].text)
    ensures r.Some? ==> r.value.ViaLabelFor? || r.value.ViaLabelNearby?
    ensures r.Some? ==> r.value.labelIndex == index
  {
    var l := view.labels[index];
    if !NamesExternalUrl(l.text) then None
    else if l.forId != [] && InputById(view, l.forId).Some? then
      Some(ViaLabelFor(index, InputById(view, l.forId).value))
    else if l.nearbyInput.Some? then
      Some(ViaLabelNearby(index, l.nearbyInput.value))
    else None
  }

  /** What each label yields, in document order. */
  function LabelTargets(view: View): (r: seq<Option<UrlTarget>>)
    ensures |r| == |view.labels|
  {
    seq(|view.labels|, i requires 0 <= i < |view.labels| => LabelTarget(view, i))
  }

  /** `input[name*="url" i]`: the name contains `url`, ignoring ASCII case. */
  predicate NameHasUrl(i: Input) {
    Contains(Lower(i.name), "url")
  }

  /** `input[data-testid*="url" i]`. */
  predicate TestIdHasUrl(i: Input) {
    Contains(Lower(i.testId), "url")
  }

  /** The fallback after the labels: by name, then by test id. */
  function FallbackTarget(view: View): (r: UrlTarget)
    ensures r.ViaName? || r.ViaTestId? || r.NotFound?
    ensures r.ViaName? ==> r.input in view.inputs && NameHasUrl(r.input)
    ensures r.ViaTestId? ==> r.input in view.inputs && TestIdHasUrl(r.input)
    ensures r.ViaTestId? ==> forall j :: 0 <= j < |view.inputs| ==> !NameHasUrl(view.inputs[j])
    ensures r.NotFound? <==> forall j :: 0 <= j < |view.inputs| ==> !NameHasUrl(view.inputs[j]) && !TestIdHasUrl(view.inputs[j])
    ensures r.ViaName? ==>
      exists k :: 0 <= k < |view.inputs| && view.inputs[k] == r.input &&
        forall j :: 0 <= j < k ==> !NameHasUrl(view.inputs[j])
    ensures r.ViaTestId? ==>
      exists k :: 0 <= k < |view.inputs| && view.inputs[k] == r.input &&
        forall j :: 0 <= j < k ==> !TestIdHasUrl(view.inputs[j])
  {
    match FirstWhere(view.inputs, NameHasUrl)
    case Some(i) => ViaName(i)
    case None =>
      match FirstWhere(view.inputs, TestIdHasUrl)
      case Some(i) => ViaTestId(i)
      case None => NotFound
  }

  /** `fillExternalUrl`: the first label that yields an input wins; the fallback runs only when none does. */
  function FindExternalUrlInput(view: View): (r: UrlTarget)
    ensures (r.ViaLabelFor? || r.ViaLabelNearby?) ==> r.labelIndex < |view.labels| && NamesExternalUrl(view.labels[r.labelIndex].text)
  {
    LabelResultQualifies(view);
    match FirstSome(LabelTargets(view))
    case Some(t) => t
    case None => FallbackTarget(view)
  }

  /** Whatever the label scan yields comes from a label that names the field. */
  lemma {:induction false} LabelResultQualifies(view: View)
    ensures var r := FirstSome(LabelTargets(view));
      r.Some? ==> (r.value.ViaLabelFor? || r.value.ViaLabelNearby?) &&
                  r.value.labelIndex < |view.labels| &&
                  NamesExternalUrl(view.labels[r.value.labelIndex].text)
  {
    var ts := LabelTargets(view);
    if FirstSome(ts).Some? {
      var i :| 0 <= i < |ts| && ts[i] == FirstSome(ts) && forall k :: 0 <= k < i ==> ts[k].None?;
      assert ts[i] == LabelTarget(view, i);
    }
  }

  /**
   * A label earlier than the one used yielded nothing: it did not name the
   * field, or it had neither a usable `for` target nor an input near it.
   */
  lemma {:induction false} ExternalUrlFirstLabelWins(view: View, i: nat)
    requires i < |view.labels| && LabelTarget(view, i).Some?
    requires forall j :: 0 <= j < i ==> LabelTarget(view, j).None?
    ensures FindExternalUrlInput(view) == LabelTarget(view, i).value
  {
    FirstSomeAt(LabelTargets(view), i);
  }

  /** The name and test-id lookups are used when no label yields an input. */
  lemma {:induction false} ExternalUrlFallbackWithoutLabels(view: View)
    requires forall j :: 0 <= j < |view.labels| ==> LabelTarget(view, j).None?
    ensures FindExternalUrlInput(view) == FallbackTarget(view)
  {
    assert forall j :: 0 <= j < |view.labels| ==> LabelTargets(view)[j].None?;
  }

  /** A label that yields an input keeps the fallback from running: a label at or before it is used. */
  lemma {:induction false} ExternalUrlLabelBeatsFallback(view: View, j: nat)
    requires j < |view.labels| && LabelTarget(view, j).Some?
    ensures FindExternalUrlInput(view).ViaLabelFor? || FindExternalUrlInput(view).ViaLabelNearby?
    ensures FindExternalUrlInput(view).labelIndex <= j
  {
    var ts := LabelTargets(view);
    assert ts[j] == LabelTarget(view, j);
    var i := FirstSomeNoLaterThan(ts, j);
    assert ts[i] == LabelTarget(view, i);
  }

  /**
   * For a label that names the field, its `for` target is preferred: the
   * nearby input is used only when the `for` attribute is empty or names no
   * input.
   */
  lemma {:induction false} LabelForBeforeNearby(view: View, i: nat)
    requires i < |view.labels| && NamesExternalUrl(view.labels[i].text)
    ensures view.labels[i].forId != [] && InputById(view, view.labels[i].forId).Some? ==>
      LabelTarget(view, i) == Some(ViaLabelFor(i, InputById(view, view.labels[i].forId).value))
    ensures LabelTarget(view, i).Some? && LabelTarget(view, i).value.ViaLabelNearby? ==>
      (view.labels[i].forId == [] || InputById(view, view.labels[i].forId).None?) &&
      Some(LabelTarget(view, i).value.input) == view.labels[i].nearbyInput
    ensures view.labels[i].forId == [] || InputById(view, view.labels[i].forId).None? ==>
      LabelTarget(view, i) == (match view.labels[i].nearbyInput
        case Some(input) => Some(ViaLabelNearby(i, input))
        case None => None)
  {
  }
}

=== FILE: mapping.dfy ===
/**
 * The Basecamp-to-JIRA project mapping of content-basecamp.js: a text block
 * with one `<digits> - <key>` mapping per line, resolved by `findJiraProjectKey`.
 */
module ProjectMapping {
  import opened Optional
  import opened Text
  import opened Search

  /** The two capture groups of `/^(\d+)\s*-\s*(.+)$/`: the project id and the raw key. */
  datatype LineMatch = LineMatch(id: string, key: string)

  /**
   * A way of reading `t` as the pattern `^(\d+)\s*-\s*(.+)$`: digits `id`,
   * whitespace `w1`, a dash, whitespace `w2`, and a non-empty `key` without
   * line terminators (which `.` does not match).
   */
  predicate Shaped(t: string, id: string, w1: string, w2: string, key: string) {
    && |id| > 0 && AllDigits(id)
    && AllWhitespace(w1) && AllWhitespace(w2)
    && |key| > 0 && NoLineTerminator(key)
    && t == id + w1 + "-" + w2 + key
  }

  /**
   * The first match of `/^(\d+)\s*-\s*(.+)$/` against `t`, following the
   * greedy, backtracking regular-expression semantics: `\d+` and the first
   * `\s*` take as much as they can (giving back would not help), and the rest
   * is left to `KeyGroup`.
   */
  function MatchLine(t: string): (r: Option<LineMatch>)
    ensures r.Some? ==> |r.value.id| > 0 && AllDigits(r.value.id) && StartsWith(t, r.value.id)
  {
    var n := LeadingDigits(t);
    if n == 0 then None
    else
      match DashAt(t[n..])
      case None => None
      case Some(w) =>
        match KeyGroup(t[n..][w + 1..])
        case None => None
        case Some(key) => Some(LineMatch(t[..n], key))
  }

  /** `\s*-`: the index of the dash that follows the leading whitespace, if there is one. */
  function DashAt(u: string): (r: Option<nat>)
    ensures r.Some? ==> r.value < |u| && u[r.value] == '-' && AllWhitespace(u[..r.value])
  {
    var w := LeadingWhitespace(u);
    if w < |u| && u[w] == '-' then Some(w) else None
  }

  /** Whitespace then a dash is always found, at the end of the whitespace. */
  lemma {:induction false} DashAfterWhitespace(w1: string, x: string)
    requires AllWhitespace(w1)
    ensures DashAt(w1 + "-" + x) == Some(|w1|)
  {
    assert w1 + "-" + x == w1 + ("-" + x);
    LeadingOfPadded(w1, "-" + x);
  }

  /**
   * `\s*(.+)$` on what follows the dash: the greedy `\s*` takes all leading
   * whitespace and `(.+)` the rest, which must be non-empty and free of line
   * terminators; when nothing is left, `\s*` gives back its last character.
   */
  function KeyGroup(v: string): (r: Option<string>)
    ensures r.Some? ==> && 0 < |r.value| <= |v|
                        && NoLineTerminator(r.value)
                        && r.value == v[|v| - |r.value|..]
                        && AllWhitespace(v[..|v| - |r.value|])
  {
    var w2 := LeadingWhitespace(v);
    if w2 < |v| then
      if NoLineTerminator(v[w2..]) then Some(v[w2..]) else None
    else if w2 > 0 && !IsLineTerminator(v[w2 - 1]) then
      assert [v[w2 - 1]] == v[w2 - 1..];
      Some([v[w2 - 1]])
    else None
  }

  /** Any split of `v` into whitespace and a key is found, up to the key's leading whitespace. */
  lemma {:induction false} KeyGroupComplete(w2: string, key: string)
    requires AllWhitespace(w2) && |key| > 0 && NoLineTerminator(key)
    ensures KeyGroup(w2 + key).Some?
    ensures Trim(KeyGroup(w2 + key).value) == Trim(key)
  {
    var v := w2 + key;
    LeadingOfWhitespacePrefix(w2, key);
    var j := LeadingWhitespace(key);
    assert v[LeadingWhitespace(v)..] == key[j..];
    if j < |key| {
      assert KeyGroup(v) == Some(key[j..]);
      TrimOfSuffixAfterWhitespace(key);
    } else {
      var c := key[|key| - 1];
      assert v[|v| - 1] == c;
      assert KeyGroup(v) == Some([c]);
      assert AllWhitespace([c]);
    }
  }

  /** What `MatchLine` captures is a genuine reading of the line as the pattern. */
  lemma {:induction false} MatchLineSound(t: string) returns (w1: string, w2: string)
    requires MatchLine(t).Some?
    ensures Shaped(t, MatchLine(t).value.id, w1, w2, MatchLine(t).value.key)
  {
    var m := MatchLine(t).value;
    var n := LeadingDigits(t);
    var u := t[n..];
    var w := DashAt(u).value;
    var v := u[w + 1..];
    var key := KeyGroup(v).value;
    assert m == LineMatch(t[..n], key);
    SplitAt(t, n);
    SplitAtDash(u, w);
    w1, w2 := u[..w], v[..|v| - |key|];
    SplitAt(v, |v| - |key|);
    Assemble(t, t[..n], u, w1, v, w2, key);
  }

  lemma {:induction false} SplitAt(t: string, n: nat)
    requires n <= |t|
    ensures t == t[..n] + t[n..]
  {
  }

  lemma {:induction false} SplitAtDash(u: string, w: nat)
    requires w < |u| && u[w] == '-'
    ensures u == u[..w] + ("-" + u[w + 1..])
  {
  }

  lemma {:induction false} Assemble(t: string, id: string, u: string, w1: string, v: string, w2: string, key: string)
    requires |id| > 0 && AllDigits(id) && AllWhitespace(w1) && AllWhitespace(w2)
    requires |key| > 0 && NoLineTerminator(key)
    requires t == id + u && u == w1 + ("-" + v) && v == w2 + key
    ensures Shaped(t, id, w1, w2, key)
  {
    assert id + w1 + "-" + w2 + key == id + (w1 + ("-" + (w2 + key)));
  }

  /**
   * Any reading of the line as the pattern is found by `MatchLine`: it has
   * the same id, and its key is the same once trimmed. So the id and the
   * trimmed key do not depend on how the pattern's pieces are chosen.
   */
  lemma {:induction false} MatchLineComplete(t: string, id: string, w1: string, w2: string, key: string)
    requires Shaped(t, id, w1, w2, key)
    ensures MatchLine(t).Some?
    ensures MatchLine(t).value.id == id
    ensures Trim(MatchLine(t).value.key) == Trim(key)
  {
    var tail := w1 + "-" + (w2 + key);
    PatternPieces(t, id, w1, w2, key, tail);
    DashAfterWhitespace(w1, w2 + key);
    assert tail[|w1| + 1..] == w2 + key;
    KeyGroupComplete(w2, key);
    MatchLineOfParts(t, |id|, |w1|, w2 + key);
  }

  /** A pattern-shaped line is its digits followed by the rest, and the digits stop where the rest begins. */
  lemma {:induction false} PatternPieces(t: string, id: string, w1: string, w2: string, key: string, tail: string)
    requires Shaped(t, id, w1, w2, key) && tail == w1 + "-" + (w2 + key)
    ensures LeadingDigits(t) == |id| && t[..|id|] == id && t[|id|..] == tail
  {
    assert t == id + tail;
    DigitsThenOther(id, tail);
  }

  /** `MatchLine` assembled from the results of its three stages. */
  lemma {:induction false} MatchLineOfParts(t: string, n: nat, w: nat, v: string)
    requires 0 < n == LeadingDigits(t)
    requires DashAt(t[n..]) == Some(w) && t[n..][w + 1..] == v && KeyGroup(v).Some?
    ensures MatchLine(t) == Some(LineMatch(t[..n], KeyGroup(v).value))
  {
  }

  lemma {:induction false} DigitsThenOther(id: string, tail: string)
    requires AllDigits(id)
    requires tail == [] || !IsDigit(tail[0])
    ensures LeadingDigits(id + tail) == |id|
  {
    if id != [] {
      assert (id + tail)[1..] == id[1..] + tail;
      DigitsThenOther(id[1..], tail);
    } else {
      assert id + tail == tail;
    }
  }

  lemma {:induction false} LeadingOfWhitespacePrefix(w: string, s: string)
    requires AllWhitespace(w)
    ensures LeadingWhitespace(w + s) == |w| + LeadingWhitespace(s)
  {
    if w != [] {
      assert (w + s)[1..] == w[1..] + s;
      LeadingOfWhitespacePrefix(w[1..], s);
    } else {
      assert w + s == s;
    }
  }

  /** Dropping a string's leading whitespace does not change its trim. */
  lemma {:induction false} TrimOfSuffixAfterWhitespace(s: string)
    ensures Trim(s[LeadingWhitespace(s)..]) == Trim(s)
  {
    var a := LeadingWhitespace(s);
    var r := Trim(s);
    TrimSplits(s);
    TrimOfSplitSuffix(s, a, r, s[a..]);
  }

  lemma {:induction false} TrimOfSplitSuffix(s: string, a: nat, r: string, x: string)
    requires a + |r| <= |s| && x == s[a..] && x == r + s[a + |r|..]
    requires IsTrimmed(r) && AllWhitespace(s[a + |r|..])
    ensures Trim(x) == r
  {
    TrimOfTrimmedThenSpace(x, r, s[a + |r|..]);
  }

  lemma {:induction false} TrimOfTrimmedThenSpace(x: string, r: string, tail: string)
    requires x == r + tail && IsTrimmed(r) && AllWhitespace(tail)
    ensures Trim(x) == r
  {
    TrimOfPadded([], r, tail);
    assert [] + r + tail == x;
  }

  /**
   * On a trimmed line the captured key is already trimmed and non-empty: the
   * backtracking case, which needs trailing whitespace, cannot arise.
   */
  lemma {:induction false} MatchOfTrimmedLine(t: string)
    requires IsTrimmed(t)
    requires MatchLine(t).Some?
    ensures MatchLine(t).value.key != []
    ensures IsTrimmed(MatchLine(t).value.key)
    ensures NoLineTerminator(MatchLine(t).value.key)
  {
    var n := LeadingDigits(t);
    var u := t[n..];
    var v := u[DashAt(u).value + 1..];
    assert MatchLine(t).value.key == KeyGroup(v).value;
    assert v[|v| - 1] == t[|t| - 1];
    KeyGroupOfTrimmedEnd(v);
  }

  /** When what follows the dash ends in a non-space, the key is the trimmed remainder. */
  lemma {:induction false} KeyGroupOfTrimmedEnd(v: string)
    requires KeyGroup(v).Some?
    requires !IsWhitespace(v[|v| - 1])
    ensures IsTrimmed(KeyGroup(v).value)
  {
    var w2 := LeadingWhitespace(v);
    if w2 == |v| {
      assert false;
    }
    assert KeyGroup(v).value == v[w2..];
  }

  /**
   * One line of the mapping text as `findJiraProjectKey` reads it: trimmed,
   * skipped when blank, otherwise matched against the pattern; yields the
   * trimmed key when the digit group equals `id` exactly.
   */
  function LineKey(line: string, id: string): (r: Option<string>)
    ensures AllWhitespace(line) ==> r.None?
    ensures r.Some? ==> r.value != [] && IsTrimmed(r.value) && NoLineTerminator(r.value)
  {
    var t := Trim(line);
    if t == [] then None
    else
      match MatchLine(t)
      case Some(m) =>
        MatchOfTrimmedLine(t);
        TrimOfTrimmed(m.key);
        if m.id == id then Some(Trim(m.key)) else None
      case None => None
  }

  /**
   * A line yields `k` for `id` exactly when its trimmed text reads as the
   * pattern with digit group `id` and a key that trims to `k`; such a `k` is
   * non-empty, trimmed and single-line.
   */
  lemma {:induction false} LineKeyMeaning(line: string, id: string, k: string)
    ensures LineKey(line, id) == Some(k) <==>
      exists w1, w2, key :: Shaped(Trim(line), id, w1, w2, key) && k == Trim(key)
    ensures LineKey(line, id) == Some(k) ==> k != [] && IsTrimmed(k) && NoLineTerminator(k)
  {
    var t := Trim(line);
    if LineKey(line, id) == Some(k) {
      var w1, w2 := MatchLineSound(t);
      MatchOfTrimmedLine(t);
      TrimOfTrimmed(MatchLine(t).value.key);
    }
    if exists w1, w2, key :: Shaped(t, id, w1, w2, key) && k == Trim(key) {
      var w1, w2, key :| Shaped(t, id, w1, w2, key) && k == Trim(key);
      MatchLineComplete(t, id, w1, w2, key);
    }
  }

  /** A line that is blank once trimmed never yields a key. */
  lemma {:induction false} BlankLineYieldsNothing(line: string, id: string)
    requires AllWhitespace(line)
    ensures LineKey(line, id) == None
  {
  }

  /** What each line of the mapping text yields for `id`, in order. */
  function LineKeys(lines: seq<string>, id: string): (r: seq<Option<string>>)
    ensures |r| == |lines|
  {
    Map(lines, (line: string) => LineKey(line, id))
  }

  lemma {:induction false} LineKeysAt(lines: seq<string>, id: string, i: nat)
    requires i < |lines|
    ensures LineKeys(lines, id)[i] == LineKey(lines[i], id)
  {
    MapAt(lines, (line: string) => LineKey(line, id), i);
  }

  lemma {:induction false} LineKeysAppend(a: seq<string>, b: seq<string>, id: string)
    ensures LineKeys(a + b, id) == LineKeys(a, id) + LineKeys(b, id)
  {
    MapAppend(a, b, (line: string) => LineKey(line, id));
  }

  /**
   * `findJiraProjectKey`: no key without a (non-empty) project id or without
   * mapping text; otherwise the first line of the text that maps the id.
   */
  function FindJiraProjectKey(projectId: Option<string>, mappings: string): (r: Option<string>)
    ensures projectId.None? || projectId == Some([]) || mappings == [] ==> r.None?
    ensures r.Some? ==> r.value != [] && IsTrimmed(r.value) && NoLineTerminator(r.value)
  {
    if projectId.None? || projectId.value == [] || mappings == [] then None
    else
      var keys := LineKeys(Lines(mappings), projectId.value);
      FirstKeyWellFormed(keys, Lines(mappings), projectId.value);
      FirstSome(keys)
  }

  lemma {:induction false} FirstKeyWellFormed(keys: seq<Option<string>>, lines: seq<string>, id: string)
    requires keys == LineKeys(lines, id)
    ensures var r := FirstSome(keys);
      r.Some? ==> r.value != [] && IsTrimmed(r.value) && NoLineTerminator(r.value)
  {
    var r := FirstSome(keys);
    if r.Some? {
      var i :| 0 <= i < |keys| && keys[i] == r;
      LineKeysAt(lines, id, i);
      LineKeyMeaning(lines[i], id, r.value);
    }
  }

  /**
   * `findJiraProjectKey` for a present id and text returns the key of the
   * first line that maps the id.
   */
  lemma {:induction false} FindJiraProjectKeyFirstMatch(projectId: string, mappings: string, i: nat)
    requires projectId != [] && mappings != []
    requires i < |Lines(mappings)| && LineKey(Lines(mappings)[i], projectId).Some?
    requires forall j :: 0 <= j < i ==> LineKey(Lines(mappings)[j], projectId).None?
    ensures FindJiraProjectKey(Some(projectId), mappings) == LineKey(Lines(mappings)[i], projectId)
  {
    var lines := Lines(mappings);
    var keys := LineKeys(lines, projectId);
    forall j | 0 <= j <= i
      ensures keys[j] == LineKey(lines[j], projectId)
    {
      LineKeysAt(lines, projectId, j);
    }
    FirstSomeAt(keys, i);
  }

  /** An id that no line maps yields no key. */
  lemma {:induction false} FindJiraProjectKeyNoMatch(projectId: string, mappings: string)
    requires forall j :: 0 <= j < |Lines(mappings)| ==> LineKey(Lines(mappings)[j], projectId).None?
    ensures FindJiraProjectKey(Some(projectId), mappings) == None
  {
    var lines := Lines(mappings);
    var keys := LineKeys(lines, projectId);
    forall j | 0 <= j < |lines|
      ensures keys[j].None?
    {
      LineKeysAt(lines, projectId, j);
    }
  }

  /** A returned key comes from some line that maps the id, with no earlier line mapping it. */
  lemma {:induction false} FindJiraProjectKeyHasSource(projectId: string, mappings: string) returns (i: nat)
    requires FindJiraProjectKey(Some(projectId), mappings).Some?
    ensures i < |Lines(mappings)|
    ensures LineKey(Lines(mappings)[i], projectId) == FindJiraProjectKey(Some(projectId), mappings)
    ensures forall j :: 0 <= j < i ==> LineKey(Lines(mappings)[j], projectId).None?
  {
    var lines := Lines(mappings);
    var keys := LineKeys(lines, projectId);
    i :| 0 <= i < |keys| && keys[i] == FirstSome(keys) && forall j :: 0 <= j < i ==> keys[j].None?;
    LineKeysAt(lines, projectId, i);
    forall j | 0 <= j < i
      ensures LineKey(lines[j], projectId).None?
    {
      LineKeysAt(lines, projectId, j);
    }
  }

  /** Splitting text joined at a newline splits each side. */
  lemma {:induction false} LinesOfJoined(a: string, b: string)
    ensures Lines(a + "\n" + b) == Lines(a) + Lines(b)
    decreases |a|
  {
    if a == [] {
      assert a + "\n" + b == "\n" + b;
      assert ("\n" + b)[1..] == b;
    } else {
      var s := a + "\n" + b;
      assert s[0] == a[0];
      assert s[1..] == a[1..] + "\n" + b;
      LinesOfJoined(a[1..], b);
    }
  }

  /** Text without a newline is a single line. */
  lemma {:induction false} LinesOfSingleLine(s: string)
    requires '\n' !in s
    ensures Lines(s) == [s]
    decreases |s|
  {
    if s != [] {
      assert s[0] in s;
      assert forall c :: c in s[1..] ==> c in s;
      LinesOfSingleLine(s[1..]);
      assert [s[0]] + s[1..] == s;
    }
  }

  /**
   * Mapping lines after the first one that maps the id never change the
   * answer: later duplicates are ignored.
   */
  lemma {:induction false} LaterLinesIgnored(projectId: Option<string>, first: string, later: string)
    requires FindJiraProjectKey(projectId, first).Some?
    ensures FindJiraProjectKey(projectId, first + "\n" + later) == FindJiraProjectKey(projectId, first)
  {
    var id := projectId.value;
    LinesOfJoined(first, later);
    LineKeysAppend(Lines(first), Lines(later), id);
    FirstSomeIgnoresLater(LineKeys(Lines(first), id), LineKeys(Lines(later), id));
  }

  /** A blank (or whitespace-only) line inserted between two lines is skipped. */
  lemma {:induction false} BlankLineSkipped(projectId: Option<string>, before: string, blank: string, after: string)
    requires AllWhitespace(blank) && '\n' !in blank
    ensures FindJiraProjectKey(projectId, before + "\n" + blank + "\n" + after) ==
            FindJiraProjectKey(projectId, before + "\n" + after)
  {
    if projectId.Some? && projectId.value != [] {
      var id := projectId.value;
      var withBlank := before + "\n" + blank + "\n" + after;
      var without := before + "\n" + after;
      LinesWithMiddleLine(before, blank, after);
      LinesOfJoined(before, after);
      KeysSkipBlankLine(Lines(before), blank, Lines(after), id);
      FindKeyOfText(id, withBlank);
      FindKeyOfText(id, without);
    }
  }

  lemma {:induction false} KeysSkipBlankLine(a: seq<string>, blank: string, b: seq<string>, id: string)
    requires AllWhitespace(blank)
    ensures FirstSome(LineKeys(a + ([blank] + b), id)) == FirstSome(LineKeys(a + b, id))
  {
    var ka, kb := LineKeys(a, id), LineKeys(b, id);
    LineKeysAppend(a, [blank] + b, id);
    LineKeysAppend([blank], b, id);
    LineKeysAppend(a, b, id);
    BlankLineYieldsNothing(blank, id);
    assert LineKeys([blank], id) == [None];
    assert ka + ([None] + kb) == ka + [None] + kb;
    FirstSomeSkipsNone(ka, kb);
  }

  lemma {:induction false} LinesWithMiddleLine(before: string, middle: string, after: string)
    requires '\n' !in middle
    ensures Lines(before + "\n" + middle + "\n" + after) == Lines(before) + ([middle] + Lines(after))
  {
    LinesOfJoined(middle, after);
    LinesOfSingleLine(middle);
    assert before + "\n" + middle + "\n" + after == before + "\n" + (middle + "\n" + after);
    LinesOfJoined(before, middle + "\n" + after);
  }

  lemma {:induction false} FindKeyOfText(id: string, mappings: string)
    requires id != [] && mappings != []
    ensures FindJiraProjectKey(Some(id), mappings) == FirstSome(LineKeys(Lines(mappings), id))
  {
  }

  /** The configuration example `"111 - ABC\n222 - DEF"` maps `222` to `DEF`. */
  lemma MappingExampleFound()
    ensures FindJiraProjectKey(Some("222"), "111 - ABC\n222 - DEF") == Some("DEF")
  {
    assert "111 - ABC\n222 - DEF" == "111" + " - " + "ABC" + "\n" + ("222" + " - " + "DEF");
    TwoLineMapping("111", "ABC", "222", "DEF", "222");
  }

  /** The same configuration maps nothing to `333`. */
  lemma MappingExampleMissing()
    ensures FindJiraProjectKey(Some("333"), "111 - ABC\n222 - DEF") == None
  {
    assert "111 - ABC\n222 - DEF" == "111" + " - " + "ABC" + "\n" + ("222" + " - " + "DEF");
    TwoLineMapping("111", "ABC", "222", "DEF", "333");
  }

  /** Two well-formed mapping lines `<id1> - <key1>` and `<id2> - <key2>`, queried for `q`. */
  lemma {:induction false} TwoLineMapping(id1: string, key1: string, id2: string, key2: string, q: string)
    requires |id1| > 0 && AllDigits(id1) && |key1| > 0 && IsTrimmed(key1) && NoLineTerminator(key1)
    requires |id2| > 0 && AllDigits(id2) && |key2| > 0 && IsTrimmed(key2) && NoLineTerminator(key2)
    requires q != []
    ensures FindJiraProjectKey(Some(q), id1 + " - " + key1 + "\n" + (id2 + " - " + key2)) ==
      if q == id1 then Some(key1) else if q == id2 then Some(key2) else None
  {
    var l1, l2 := id1 + " - " + key1, id2 + " - " + key2;
    LinesOfJoined(l1, l2);
    NoNewlineInMappingLine(id1, key1);
    NoNewlineInMappingLine(id2, key2);
    LinesOfSingleLine(l1);
    LinesOfSingleLine(l2);
    LineOfMapping(l1, id1, key1, q);
    LineOfMapping(l2, id2, key2, q);
    assert Lines(l1 + "\n" + l2) == [l1, l2];
    FindKeyOfText(q, l1 + "\n" + l2);
    var ks := LineKeys([l1, l2], q);
    LineKeysAt([l1, l2], q, 0);
    LineKeysAt([l1, l2], q, 1);
    TwoKeys(ks);
  }

  /** The first present value of a two-element list. */
  lemma {:induction false} TwoKeys<T>(ks: seq<Option<T>>)
    requires |ks| == 2
    ensures FirstSome(ks) == if ks[0].Some? then ks[0] else ks[1]
  {
    if ks[0].Some? {
      FirstSomeAt(ks, 0);
    } else if ks[1].Some? {
      FirstSomeAt(ks, 1);
    }
  }

  lemma {:induction false} NoNewlineInMappingLine(id: string, key: string)
    requires AllDigits(id) && NoLineTerminator(key)
    ensures '\n' !in id + " - " + key
  {
    var line := id + " - " + key;
    forall i | 0 <= i < |line|
      ensures line[i] != '\n'
    {
      if i >= |id| + 3 {
        assert line[i] == key[i - |id| - 3];
      }
    }
  }

  /** A line written `<id> - <key>` maps exactly `id`, to `key`. */
  lemma {:induction false} LineOfMapping(line: string, id: string, key: string, q: string)
    requires |id| > 0 && AllDigits(id) && |key| > 0 && IsTrimmed(key) && NoLineTerminator(key)
    requires line == id + " - " + key
    ensures LineKey(line, q) == if q == id then Some(key) else None
  {
    assert line == id + " " + "-" + " " + key;
    assert line[|line| - 1] == key[|key| - 1];
    assert line[0] == id[0];
    TrimOfTrimmed(line);
    MatchLineComplete(line, id, " ", " ", key);
    TrimOfTrimmed(key);
  }
}

=== FILE: optional.dfy ===
/** An optional value, standing for JavaScript's `null`/`undefined` versus a present value. */
module Optional {

  datatype Option<+T> = None | Some(value: T) {

    /** The value, or `default` when absent. */
    function GetOr(default: T): T {
      match this
      case Some(v) => v
      case None => default
    }
  }
}

=== FILE: pending.dfy ===
/**
 * The pending task: the record content-basecamp.js writes under the storage
 * key `pendingJiraTask` and content-jira.js consumes.
 */
module PendingTasks {
  import opened Optional

  /**
   * `summary` is the collapsed title, `basecampUrl` the page's address,
   * `projectName` informational only, `jiraProjectKey` the mapped key or
   * `null`, `timestamp` the creation time in milliseconds.
   */
  datatype PendingTask = PendingTask(
    summary: string,
    basecampUrl: string,
    projectName: string,
    jiraProjectKey: Option<string>,
    timestamp: int)

  /** JavaScript truthiness of `task.jiraProjectKey`: present and not the empty string. */
  predicate HasProjectKey(task: PendingTask) {
    task.jiraProjectKey.Some? && task.jiraProjectKey.value != []
  }
}

=== FILE: search.dfy ===
/**
 * Ordered first-hit searches: the shape shared by every `for … of` loop with
 * an early `return`, by `a || b || c` fallback chains, and by
 * `querySelector`, which yields the first element in document order.
 */
module Search {
  import opened Optional

  /** The first present value of `xs`: a `for … of` loop that returns on the first hit. */
  function FirstSome<T(==)>(xs: seq<Option<T>>): (r: Option<T>)
    ensures r.None? <==> forall i :: 0 <= i < |xs| ==> xs[i].None?
    ensures r.Some? ==> exists i :: 0 <= i < |xs| && xs[i] == r && forall j :: 0 <= j < i ==> xs[j].None?
    decreases |xs|
  {
    if xs == [] then None
    else if xs[0].Some? then
      xs[0]
    else
      var r := FirstSome(xs[1..]);
      assert forall i :: 1 <= i < |xs| ==> xs[i] == xs[1..][i - 1];
      if r.Some? then
        var i :| 0 <= i < |xs| - 1 && xs[1..][i] == r && forall j :: 0 <= j < i ==> xs[1..][j].None?;
        assert xs[i + 1] == r;
        r
      else r
  }

  /** The first present value is the one every earlier absent value leads to. */
  lemma {:induction false} FirstSomeAt<T>(xs: seq<Option<T>>, i: nat)
    requires i < |xs| && xs[i].Some?
    requires forall j :: 0 <= j < i ==> xs[j].None?
    ensures FirstSome(xs) == xs[i]
  {
    var r := FirstSome(xs);
    var k :| 0 <= k < |xs| && xs[k] == r && forall j :: 0 <= j < k ==> xs[j].None?;
    assert !(k < i) && !(i < k);
  }

  /** A present value at `j` means the first present value is at `j` or before. */
  lemma {:induction false} FirstSomeNoLaterThan<T>(xs: seq<Option<T>>, j: nat) returns (i: nat)
    requires j < |xs| && xs[j].Some?
    ensures i <= j && FirstSome(xs) == xs[i] && xs[i].Some?
  {
    i :| 0 <= i < |xs| && xs[i] == FirstSome(xs) && forall k :: 0 <= k < i ==> xs[k].None?;
  }

  /** Whatever follows the first present value is never looked at. */
  lemma {:induction false} FirstSomeIgnoresLater<T>(xs: seq<Option<T>>, ys: seq<Option<T>>)
    requires FirstSome(xs).Some?
    ensures FirstSome(xs + ys) == FirstSome(xs)
    decreases |xs|
  {
    assert (xs + ys)[0] == xs[0];
    if xs[0].None? {
      assert (xs + ys)[1..] == xs[1..] + ys;
      FirstSomeIgnoresLater(xs[1..], ys);
    }
  }

  /** An absent value anywhere is skipped over. */
  lemma {:induction false} FirstSomeSkipsNone<T>(xs: seq<Option<T>>, ys: seq<Option<T>>)
    ensures FirstSome(xs + [None] + ys) == FirstSome(xs + ys)
    decreases |xs|
  {
    if xs == [] {
      assert xs + [None] + ys == [None] + ys;
      assert ([None] + ys)[1..] == ys;
      assert xs + ys == ys;
    } else {
      assert (xs + [None] + ys)[0] == xs[0];
      assert (xs + ys)[0] == xs[0];
      assert (xs + [None] + ys)[1..] == xs[1..] + [None] + ys;
      assert (xs + ys)[1..] == xs[1..] + ys;
      FirstSomeSkipsNone(xs[1..], ys);
    }
  }

  /** The position of the first element satisfying `p`, or none. */
  function FirstIndex<T>(xs: seq<T>, p: T -> bool): (r: Option<nat>)
    ensures r.Some? ==> r.value < |xs| && p(xs[r.value])
    ensures r.Some? ==> forall j :: 0 <= j < r.value ==> !p(xs[j])
    ensures r.None? <==> forall j :: 0 <= j < |xs| ==> !p(xs[j])
    decreases |xs|
  {
    if xs == [] then None
    else if p(xs[0]) then Some(0)
    else
      var r := FirstIndex(xs[1..], p);
      assert forall j :: 1 <= j < |xs| ==> xs[j] == xs[1..][j - 1];
      if r.Some? then Some(r.value + 1) else None
  }

  /** The first element satisfying `p`, or none. */
  function FirstWhere<T>(xs: seq<T>, p: T -> bool): (r: Option<T>)
    ensures r.Some? ==> r.value in xs && p(r.value)
    ensures r.None? <==> forall j :: 0 <= j < |xs| ==> !p(xs[j])
    ensures r.Some? ==> exists i :: 0 <= i < |xs| && xs[i] == r.value && forall j :: 0 <= j < i ==> !p(xs[j])
  {
    match FirstIndex(xs, p)
    case None => None
    case Some(i) => Some(xs[i])
  }

  /** The element found is the one at the first index where `p` holds. */
  lemma {:induction false} FirstWhereAt<T>(xs: seq<T>, p: T -> bool, i: nat)
    requires i < |xs| && p(xs[i])
    requires forall j :: 0 <= j < i ==> !p(xs[j])
    ensures FirstIndex(xs, p) == Some(i)
    ensures FirstWhere(xs, p) == Some(xs[i])
  {
    var r := FirstIndex(xs, p);
    assert r.Some?;
    assert !(r.value < i) && !(i < r.value);
  }

  /** `f` applied to each element, in order. */
  function Map<A, B>(xs: seq<A>, f: A -> B): (r: seq<B>)
    ensures |r| == |xs|
    decreases |xs|
  {
    if xs == [] then [] else [f(xs[0])] + Map(xs[1..], f)
  }

  lemma {:induction false} MapAt<A, B>(xs: seq<A>, f: A -> B, i: nat)
    requires i < |xs|
    ensures Map(xs, f)[i] == f(xs[i])
    decreases |xs|
  {
    if i > 0 {
      MapAt(xs[1..], f, i - 1);
    }
  }

  lemma {:induction false} MapAppend<A, B>(a: seq<A>, b: seq<A>, f: A -> B)
    ensures Map(a + b, f) == Map(a, f) + Map(b, f)
    decreases |a|
  {
    if a == [] {
      assert a + b == b;
    } else {
      assert (a + b)[0] == a[0];
      assert (a + b)[1..] == a[1..] + b;
      MapAppend(a[1..], b, f);
    }
  }
}

=== FILE: text.dfy ===
/**
 * JavaScript string primitives used by both content scripts, over `seq<char>`:
 * the `\s` class and `String.prototype.trim` (which share one character set),
 * `\d`, `startsWith`/`endsWith`/`includes`, ASCII lower-casing and `split('\n')`.
 */
module Text {

  /** ECMAScript LineTerminator: the characters `.` in a regular expression does not match. */
  predicate IsLineTerminator(c: char) {
    c == '\n' || c == '\r' || c == '\U{2028}' || c == '\U{2029}'
  }

  /** ECMAScript WhiteSpace plus LineTerminator: the `\s` class and what `trim()` strips. */
  predicate IsWhitespace(c: char) {
    c in WhitespaceChars
  }

  const WhitespaceChars: set<char> := {
    '\t', '\n', '\U{000B}', '\U{000C}', '\r', ' ', '\U{00A0}', '\U{1680}',
    '\U{2000}', '\U{2001}', '\U{2002}', '\U{2003}', '\U{2004}', '\U{2005}',
    '\U{2006}', '\U{2007}', '\U{2008}', '\U{2009}', '\U{200A}',
    '\U{2028}', '\U{2029}', '\U{202F}', '\U{205F}', '\U{3000}', '\U{FEFF}'
  }

  /** The `\d` class: ASCII digits only. */
  predicate IsDigit(c: char) {
    '0' <= c <= '9'
  }

  predicate AllWhitespace(s: string) {
    forall i :: 0 <= i < |s| ==> IsWhitespace(s[i])
  }

  predicate AllDigits(s: string) {
    forall i :: 0 <= i < |s| ==> IsDigit(s[i])
  }

  predicate NoLineTerminator(s: string) {
    forall i :: 0 <= i < |s| ==> !IsLineTerminator(s[i])
  }

  /** A string `trim()` leaves unchanged: empty, or starting and ending with a non-space. */
  predicate IsTrimmed(s: string) {
    s == [] || (!IsWhitespace(s[0]) && !IsWhitespace(s[|s| - 1]))
  }

  /** Length of the longest whitespace prefix (what a greedy `\s*` consumes). */
  function LeadingWhitespace(s: string): (n: nat)
    ensures n <= |s|
    ensures AllWhitespace(s[..n])
    ensures n < |s| ==> !IsWhitespace(s[n])
  {
    if |s| > 0 && IsWhitespace(s[0]) then
      var m := LeadingWhitespace(s[1..]);
      assert s[..m + 1] == [s[0]] + s[1..][..m];
      m + 1
    else 0
  }

  /** Length of the longest whitespace suffix. */
  function TrailingWhitespace(s: string): (n: nat)
    ensures n <= |s|
    ensures AllWhitespace(s[|s| - n..])
    ensures n < |s| ==> !IsWhitespace(s[|s| - n - 1])
  {
    if |s| > 0 && IsWhitespace(s[|s| - 1]) then
      var m := TrailingWhitespace(s[..|s| - 1]);
      assert s[|s| - (m + 1)..] == s[..|s| - 1][|s| - 1 - m..] + [s[|s| - 1]];
      m + 1
    else 0
  }

  /** Length of the longest digit prefix (what a greedy `\d+` consumes). */
  function LeadingDigits(s: string): (n: nat)
    ensures n <= |s|
    ensures AllDigits(s[..n])
    ensures n < |s| ==> !IsDigit(s[n])
  {
    if |s| > 0 && IsDigit(s[0]) then 1 + LeadingDigits(s[1..]) else 0
  }

  /**
   * `String.prototype.trim`: what follows the leading whitespace, up to a
   * tail that is whitespace only.
   */
  function Trim(s: string): (r: string)
    ensures IsTrimmed(r)
    ensures r == [] <==> AllWhitespace(s)
    ensures LeadingWhitespace(s) + |r| <= |s|
    ensures s[LeadingWhitespace(s)..LeadingWhitespace(s) + |r|] == r
    ensures AllWhitespace(s[LeadingWhitespace(s) + |r|..])
  {
    var a := LeadingWhitespace(s);
    if a == |s| then []
    else
      assert TrailingWhitespace(s) < |s| - a;
      s[a..|s| - TrailingWhitespace(s)]
  }

  /** `trim()` keeps what follows the leading whitespace, up to a whitespace-only tail. */
  lemma {:induction false} TrimSplits(s: string)
    ensures s[LeadingWhitespace(s)..] == Trim(s) + s[LeadingWhitespace(s) + |Trim(s)|..]
  {
    SliceAt(s, LeadingWhitespace(s), Trim(s));
  }

  /** A string that occurs at position `a` splits the suffix from `a`. */
  lemma {:induction false} SliceAt(s: string, a: nat, t: string)
    requires a + |t| <= |s| && s[a..a + |t|] == t
    ensures s[a..] == t + s[a + |t|..]
  {
  }

  /** Trimming is undone only by whitespace: surrounding a trimmed string with any whitespace trims back to it. */
  lemma {:induction false} TrimOfPadded(a: string, m: string, b: string)
    requires AllWhitespace(a) && AllWhitespace(b) && IsTrimmed(m)
    ensures Trim(a + m + b) == m
  {
    var s := a + m + b;
    if m == [] {
      assert AllWhitespace(s);
    } else {
      assert s == a + (m + b);
      LeadingOfPadded(a, m + b);
      TrailingOfPadded(a + m, b);
      assert s[|a|..|s| - |b|] == m;
    }
  }

  lemma {:induction false} LeadingOfPadded(a: string, t: string)
    requires AllWhitespace(a)
    requires t == [] || !IsWhitespace(t[0])
    ensures LeadingWhitespace(a + t) == |a|
  {
    if a != [] {
      assert (a + t)[1..] == a[1..] + t;
      LeadingOfPadded(a[1..], t);
    } else {
      assert a + t == t;
    }
  }

  lemma {:induction false} TrailingOfPadded(m: string, b: string)
    requires AllWhitespace(b)
    requires m != [] && !IsWhitespace(m[|m| - 1])
    ensures TrailingWhitespace(m + b) == |b|
  {
    if b != [] {
      assert (m + b)[..|m + b| - 1] == m + b[..|b| - 1];
      TrailingOfPadded(m, b[..|b| - 1]);
    } else {
      assert m + b == m;
    }
  }

  /** A trimmed string is its own trim. */
  lemma {:induction false} TrimOfTrimmed(s: string)
    requires IsTrimmed(s)
    ensures Trim(s) == s
  {
    TrimOfPadded([], s, []);
    assert [] + s + [] == s;
  }

  function StartsWith(s: string, prefix: string): bool {
    |prefix| <= |s| && s[..|prefix|] == prefix
  }

  function EndsWith(s: string, suffix: string): bool {
    |suffix| <= |s| && s[|s| - |suffix|..] == suffix
  }

  /** `needle` occurs in `s` starting at index `i`. */
  predicate OccursAt(s: string, needle: string, i: nat) {
    i + |needle| <= |s| && s[i..i + |needle|] == needle
  }

  /** `String.prototype.includes`. */
  function Contains(s: string, needle: string): (b: bool)
    ensures b <==> exists i: nat :: OccursAt(s, needle, i)
  {
    if StartsWith(s, needle) then
      assert OccursAt(s, needle, 0);
      true
    else if |s| == 0 then
      assert forall i: nat :: !OccursAt(s, needle, i);
      false
    else
      var r := Contains(s[1..], needle);
      assert forall i: nat :: OccursAt(s[1..], needle, i) <==> OccursAt(s, needle, i + 1);
      assert forall i: nat :: OccursAt(s, needle, i) ==> i == 0 || OccursAt(s[1..], needle, i - 1);
      r
  }

  /** ASCII lower-casing of one character; everything outside `A`..`Z` is unchanged. */
  function LowerChar(c: char): char {
    if 'A' <= c <= 'Z' then (c as int + 32) as char else c
  }

  /** `toLowerCase` restricted to ASCII letters (the case folding of a CSS `i` attribute flag). */
  function Lower(s: string): (r: string)
    ensures |r| == |s|
    ensures forall i :: 0 <= i < |s| ==> r[i] == LowerChar(s[i])
  {
    seq(|s|, i requires 0 <= i < |s| => LowerChar(s[i]))
  }

  /** `s.split('\n')`: always at least one piece, pieces hold no newline. */
  function Lines(s: string): (r: seq<string>)
    ensures |r| >= 1
    ensures forall k :: 0 <= k < |r| ==> '\n' !in r[k]
    decreases |s|
  {
    if s == [] then [[]]
    else if s[0] == '\n' then [[]] + Lines(s[1..])
    else
      var rest := Lines(s[1..]);
      [[s[0]] + rest[0]] + rest[1..]
  }

  /** `pieces.join('\n')`. */
  function JoinLines(pieces: seq<string>): string
    requires |pieces| >= 1
    decreases |pieces|
  {
    if |pieces| == 1 then pieces[0] else pieces[0] + "\n" + JoinLines(pieces[1..])
  }

  /** Splitting on newlines loses nothing: joining the pieces back gives the text. */
  lemma {:induction false} JoinLinesOfLines(s: string)
    ensures JoinLines(Lines(s)) == s
    decreases |s|
  {
    if s == [] {
    } else if s[0] == '\n' {
      JoinLinesOfLines(s[1..]);
      assert Lines(s)[1..] == Lines(s[1..]);
      assert s == [] + "\n" + s[1..];
    } else {
      JoinLinesOfLines(s[1..]);
      JoinLinesExtendFirst(s[0], Lines(s[1..]));
      assert s == [s[0]] + s[1..];
    }
  }

  /** Prefixing the first piece with a character prefixes the joined text with it. */
  lemma {:induction false} JoinLinesExtendFirst(c: char, pieces: seq<string>)
    requires |pieces| >= 1
    ensures JoinLines([[c] + pieces[0]] + pieces[1..]) == [c] + JoinLines(pieces)
  {
    var r := [[c] + pieces[0]] + pieces[1..];
    if |pieces| > 1 {
      assert r[1..] == pieces[1..];
    }
  }
}
